=== FILE: README.md ===
# Distri-Node work distribution, modelled in Dafny

Distri-Node is a volunteer-computing server. `DistriServer` (index.js) keeps a
session of problems. Each problem records its work, the number of clients
working on it, and the solutions submitted so far. A sorted array `remaining`
lists the problems that still have room for another worker. A problem needs
`verificationStrength` solutions before its workgroup is complete, and the
listener of `workgroup_complete` then accepts or rejects the workgroup. When
every problem has been accepted the session is cleared.

This project models that bookkeeping as pure transitions over an immutable
`Server` record (module `DistriServer`):

- adding work;
- choosing and handing out an index;
- recording a submission, refused or admitted;
- accepting or rejecting a complete workgroup;
- connecting and closing a connection;
- handing work to every client when a session starts.

It proves the capacity invariant the design rests on: no problem ever has more
workers plus solutions than the verification strength (module
`ServerInvariants`). Two places where the server loses track of a worker or of
an open problem are exhibited on a concrete scenario, then corrected, and the corrected
server is proved to keep two liveness invariants on every event (module
`ServerRepairs`). The same module shows the state a restart from the
completion signal observes, and how it differs from the model's reset. The message handler of a connection is in module
`Connection`. The `binary-search` package and the `push`/`sort`/`splice` calls
on `remaining` are in module `SortedIndices`. The two example workloads are in
`workloads.dfy`: the factorial loop and the Collatz step counter.

Two fields of the model are not fields of the JavaScript object, because the
source keeps them in closures:

- `held` is the multiset of indices held by open connections, one per
  connection's `ind`.
- `awaiting` is the set of items whose `workgroup_complete` decision is still
  outstanding, one per live promise continuation.

Decisions may be resolved in any order, as the promises may.

Where the source is evidently broken, the model follows the evident intent:

- `workGetter` and `randomIndGenerator` are module-level arrow functions, so
  their `this` is not the server. The model passes the server explicitly.
- A connection's `ind` is never assigned. In the model, the index `workGetter`
  hands out becomes the index the connection holds.

The repository's test file expects an interface that index.js does not have.
The model follows index.js:

- test/test.js:3-5 reads `DistriServer` and `DistriClient` off the module, but
  index.js:246 exports the `DistriServer` class itself and no client.
- test/test.js:40 passes `security: { verificationStrength: 3 }` and `files`,
  but index.js:78-82 and :154 read `verificationStrength` and `file` at the top
  level of the options.
- test/test.js:45-59 calls `Distri.CheckPercentage`, which index.js does not
  define. There is no consensus percentage in the model.

The close handler does not put the index back into `remaining`.
`DistriServer.Disconnect` keeps this as written. "## Findings" records it
together with the corrected handler.

## Model

| member | source | states |
|---|---|---|
| `SortedIndices.Search` | index.js:191-192 | The binary search finds the value when it is present. When it is absent, it answers `~p`: every element before position `p` is smaller than the value and every element from `p` on is larger. |
| `SortedIndices.Find` | index.js:16-17 | `bs(remaining, ind)` is non-negative exactly when `ind` is in `remaining`, and then it is a position holding `ind`. |
| `SortedIndices.RemoveFoundIsWithout` | index.js:16-17 | Splicing one element out at the found position removes exactly that value from a strictly sorted array. |
| `SortedIndices.RemoveAt` | index.js:17 | `splice(k, 1)` shortens the array by one and keeps every other element in order. A strictly sorted array stays strictly sorted and loses only that element. |
| `SortedIndices.Truncate` | index.js:192 | `splice(k)` with no delete count keeps exactly the first `k` elements. |
| `SortedIndices.Sort` | index.js:206 | Sorting with `comparator` yields an ordered permutation of the array. |
| `SortedIndices.SortSorted` | index.js:241 | Sorting an array that is already in order leaves it unchanged. |
| `SortedIndices.PushSortIsInsert` | index.js:205-206 | `push` then `sort` on an ordered array is the same as inserting the value at its ordered position. |
| `SortedIndices.InsertKeepsStrictOrder` | index.js:204-206 | Inserting a value that is absent keeps an array strictly increasing. |
| `SortedIndices.Reinsert` | index.js:204-207 | Re-adding an index only when the search misses it keeps `remaining` strictly increasing. The index becomes a member, and the length grows by one exactly when it was absent, so no duplicate appears. |
| `SortedIndices.PushRun` | index.js:238-241 | Pushing the new indices `n .. n+count-1` and sorting gives an ordered permutation. When every old index is below `n`, the result is the old array followed by the run, and it is strictly increasing. |
| `DistriServer.Start` | index.js:97-128 | A new server has no problems, no remaining indices, zero pending, zero solved and zero users. |
| `DistriServer.ChooseIndex` | index.js:22-28 | `randomIndGenerator` answers -1 exactly when `remaining` is empty or pending plus solved exceeds the session length. Otherwise it answers a member of `remaining`. |
| `DistriServer.EveryOpenIndexReachable` | index.js:27 | Every position of `remaining` is the pick of some random draw. |
| `DistriServer.Allocate` | index.js:9-20 | With no work available, nothing changes. Otherwise the chosen problem, taken from `remaining`, gains exactly one worker and no other problem changes. The index leaves `remaining` exactly when workers plus solutions reach the strength. The connection now holds the index. |
| `DistriServer.Record` | index.js:174-178 | The solution is appended and one worker is released, so the problem's load is unchanged and no other problem changes. |
| `DistriServer.SubmitAdmitted` | index.js:174-181 | An admitted solution is appended to the submitter's problem, which keeps its work and loses the submitter as a worker. The submitter is handed new work exactly when work is available, and a different handed problem gains exactly one worker. That index leaves `remaining` exactly when the problem becomes full. `pending` grows by one and the problem awaits a decision exactly when its solutions reach the strength. `solved` is untouched. |
| `DistriServer.RecordThenAllocate` | index.js:176-179 | Recording and then handing out new work, described against the state before both. Only the recorded problem gains a solution, and it keeps its work. Only the newly handed problem gains a worker. Work is handed out exactly when the state before allows it. `remaining` loses the handed index exactly when that problem becomes full. |
| `DistriServer.SubmitWork` | index.js:158-214 | A submission from a connection holding no index changes nothing. A refused submission only clears the connection's index and leaves every problem unchanged. An admitted one behaves as `SubmitAdmitted`. |
| `DistriServer.Accept` | index.js:189-199 | Accepting a workgroup decrements `pending` and counts one more solved problem. Completion is signalled exactly when that count reaches the session length. The session and the counter are then both reset, before the signal; the source resets the counter only after the listener returns (see "## Findings"). An index absent from `remaining` leaves `remaining` untouched. |
| `DistriServer.Reject` | index.js:200-208 | The problem is reset to no workers and no solutions, and `pending` drops by one. The index is in `remaining` afterwards, and `remaining` stays strictly sorted without duplicates. |
| `DistriServer.Connect` | index.js:137 | A connection increments `userCount` and changes nothing else. |
| `DistriServer.Disconnect` | index.js:218-223 | Closing decrements `userCount`. When an index is held, exactly that problem loses one worker. `remaining` is not touched. |
| `DistriServer.AddWork` | index.js:233-243 | Earlier problems are unchanged. Each new item is at position `oldLen+k` with no workers and no solutions. `remaining` stays sorted and gains exactly the new indices. The ready signal fires exactly when the session was empty before. |
| `DistriServer.Broadcast` | index.js:242 | Handing work to every client in turn gives one reply per client. The first client gets work exactly when some is available. The held indices grow by exactly the indices handed out, and no counter changes. |
| `DistriServer.BroadcastServesClients` | index.js:242 | Every client is served while work lasts. A round on an exhausted server changes nothing and hands out nothing. A round that leaves some client without work ends exhausted. |
| `ServerInvariants.AllocateRemaining` | index.js:14-20 | After one allocation, an index is open exactly when it was open before and its problem still has spare capacity. |
| `ServerInvariants.BroadcastRemaining` | index.js:242 | After a round, an index is open exactly when it was open before the round and its problem still has spare capacity. A round closes a problem only once it is full. |
| `DistriServer.BroadcastSessions` | index.js:242 | Over a round, each problem gains exactly one worker per time its index is handed out, and nothing else in it changes. |
| `DistriServer.SubmitUnattended` | index.js:167-199 | With no listeners, every submission is admitted and every complete workgroup is accepted. The solved count grows by one exactly when the submission completes its problem. Completion is signalled exactly when that was the last problem, and the session is then empty. The result is the admitted submission, followed by `Accept` when it completes its problem. |
| `DistriServer.ConcludeCounts` | index.js:180-199 | When the submission and its acceptance happen at once, the counters stay consistent. A problem that was not awaiting a decision before is not awaiting one after. |
| `ServerInvariants.StartValid` | index.js:97-128 | The constructed server satisfies the capacity invariant for any strength of at least 1. |
| `ServerInvariants.NeverOvercommitted` | index.js:24 | Under the invariant, pending plus solved never exceeds the session length. So the generator answers -1 exactly when `remaining` is empty. |
| `ServerInvariants.AllocateKeepsCapacity` | index.js:14-18 | `workGetter` only hands out a problem with spare capacity and never pushes a problem above the strength. |
| `ServerInvariants.AllocatePreservesValid` | index.js:9-20 | `workGetter` keeps the whole invariant and never hands out a problem that is awaiting a decision. |
| `ServerInvariants.RecordKeepsCapacity` | index.js:176-178 | Recording keeps capacity, and the submitter's problem had fewer solutions than the strength before. |
| `ServerInvariants.SubmitWorkPreservesValid` | index.js:158-214 | Any submission keeps the invariant, admitted or refused. The submitted problem is never one awaiting a decision. |
| `ServerInvariants.AcceptPreservesValid` | index.js:189-199 | Accepting keeps the invariant. The accepted index is never in `remaining`, so the truncating splice at line 192 never runs. |
| `ServerInvariants.AcceptLastResets` | index.js:193-198 | Accepting the last problem returns the server to its constructed state, apart from the connected users. |
| `ServerInvariants.LastLeavesOnlyFullItems` | index.js:194 | When the last problem is being accepted, every problem is full with no workers, and only that problem awaits a decision. |
| `ServerInvariants.RejectPreservesValid` | index.js:200-208 | Rejecting keeps the invariant and leaves the problem on offer again. |
| `ServerInvariants.ConnectPreservesValid` | index.js:137 | A new connection keeps the invariant. |
| `ServerInvariants.DisconnectPreservesValid` | index.js:218-223 | Closing a connection keeps the invariant. |
| `ServerInvariants.AddWorkPreservesValid` | index.js:233-243 | Adding work keeps the invariant. |
| `ServerInvariants.BroadcastPreservesValid` | index.js:242 | Handing work to every client keeps the invariant. |
| `ServerInvariants.SubmitUnattendedPreservesValid` | index.js:167-199 | The default policy keeps the invariant and never leaves a decision outstanding. |
| `ServerRepairs.RefusedSubmissionLeaksWorker` | index.js:211-214 | After a refused submission, the problem still counts a worker that no connection holds. It is full, so it is never offered again. |
| `ServerRepairs.DisconnectStrandsItem` | index.js:218-223 | After the only worker disconnects, the problem has spare capacity but is missing from `remaining`. |
| `ServerRepairs.SignalledState` | index.js:194-197 | The `all_work_complete` listener observes the initial state, except that the solved counter still counts the whole finished session. |
| `ServerRepairs.RestartInListenerStarves` | index.js:194-197 | Adding a batch shorter than the finished session from the listener, as examples/collatz.js:20-23 does, signals ready but hands no client any work. |
| `ServerRepairs.RestartAfterAcceptServes` | index.js:194-197 | With both resets made before the signal, adding any non-empty batch serves the first client. |
| `ServerRepairs.Release` | index.js:218-223 | Releasing a worker removes one worker from the problem. The index is back in `remaining` exactly when the problem has spare capacity. |
| `ServerRepairs.DisconnectFixed` | index.js:218-223 | The corrected close handler is `Release` of the held index, with one user fewer. |
| `ServerRepairs.SubmitWorkFixed` | index.js:211-214 | The corrected refusal releases the problem's own worker. Admitted submissions are unchanged. |
| `ServerRepairs.SubmitWorkFixedKeepsLive` | index.js:158-214 | With the correction, every submission keeps the capacity invariant. Every worker stays a live connection, and every problem with spare capacity stays on offer. |
| `ServerRepairs.StepPreservesInvariants` | index.js:130-243 | Every event of the corrected server keeps the capacity invariant and both liveness invariants. |
| `Connection.Classify` | index.js:139-158 | A message is ignored when it is undecodable, not a plain object, lacks a response or lacks a type. The JSON value `null` makes the shape test throw, and nothing else does. Otherwise it is dispatched on its type: the file on `request`, work on `request_work`, a submission on `submit_work`. |
| `Connection.OnMessage` | index.js:139-216 | The handler throws exactly on `null`, and then changes nothing. Ignored messages and file requests change nothing. A work request is exactly an allocation. When it finds work, the connection holds exactly the index handed out, taken from `remaining`; otherwise it keeps the index it held. A submission is exactly `SubmitWork`, and the connection then holds the index it was handed. A submission without a held index changes nothing. |
| `Connection.OnMessagePreservesValid` | index.js:139-216 | Every message, whatever its shape, keeps the capacity invariant. |
| `FactorialWorkload.Compute` | examples/factorial/client.js:7-11 | For `work >= 1` the submitted value is `work!`. For `work <= 1` it is `work` itself, so 0 yields 0. The loop body runs `max(work-1, 0)` times. |
| `CollatzWorkload.Next` | examples/collatz/client.js:11-17 | An even value is halved, and an odd `t` becomes `3t+1`. |
| `CollatzWorkload.Steps` | examples/collatz/client.js:7-20 | The count reported is the first number of steps whose iterate is 1: that many steps reach 1 and no fewer do. Input 1 yields 0. |
| `CollatzWorkload.ZeroNeverArrives` | examples/collatz/client.js:9-17 | From 0 the loop never reaches 1. |

## Left out

- The WebSocket server, `ws.send`, the error reply "No work available" and `JSON.parse` are transport. A message is modelled as undecodable, as `null`, or as an already decoded value.
- What happens after the `TypeError` that `null` raises at index.js:149 is not modelled. The exception escapes the listener, and whether it ends the process depends on the host. The model records only that the handler threw and changed nothing.
- The EventEmitter and the promises are modelled by parameters: whether a submission is admitted, and which workgroup decision comes next. Asynchrony and interleaving are not modelled beyond decisions resolving in any order.
- `Math.random()` is a parameter `rnd` with `0 <= rnd < 1`. The pick is `floor(rnd * |remaining|)`, as `| 0` computes for these values.
- The constructor's option merging and the `TypeError`s for non-object options and non-array work are excluded by the types.
- `sentFile` is never set, so the model sends the file on every `request`.
- A connection that requests work while already holding an index keeps both indices in `held`. The source overwrites nothing, since it never sets `ind`, so this case has no defined behaviour to model.
- `server.clients.map(workGetter)` is modelled as one allocation per connected client, in order, with one random draw each.
- JavaScript number semantics (floating point, overflow of the factorial) are not modelled: the workloads compute over unbounded integers.
- CollatzWorkload.Steps: takes a step budget `fuel`, because termination of the loop for every input is the Collatz conjecture. It reports `None` when the budget runs out, and says nothing about the count beyond that budget.

## Findings

| source | as written | input that shows it | evidently intended | confidence | as-written member | corrected member |
|---|---|---|---|---|---|---|
| index.js:211-214 | A refused submission decrements `this.workers`, a property of the server, instead of the problem's worker count. | Strength 1, one problem handed to one client, `work_submitted` rejects. The problem keeps one worker forever, so it is full and never offered again. | Decrement the held problem's `workers` and offer it again. | not executed | `ServerRepairs.RefusedSubmissionLeaksWorker` | `ServerRepairs.SubmitWorkFixed` (invariants kept: `ServerRepairs.SubmitWorkFixedKeepsLive`) |
| index.js:218-223 | Closing a connection decrements the problem's workers but does not put its index back into `remaining`. | Strength 1, one problem handed to one client, the client disconnects. The problem has spare capacity but can never be handed out again. | Put the index back into `remaining` when the problem regains spare capacity. | not executed | `ServerRepairs.DisconnectStrandsItem` | `ServerRepairs.DisconnectFixed` (invariants kept: `ServerRepairs.StepPreservesInvariants`) |
| index.js:194-197 | On the last accept the session is emptied, `all_work_complete` is emitted, and only then is `solutions` reset to 0. | Strength 1, two items, the last one accepted, and the listener calls `addWork` with one item, as the Collatz example restarts. `pending + solutions` is 0 + 2 > 1, so every client is answered "No work available". | Reset `solutions` together with the session, before emitting the signal. | not executed | `ServerRepairs.RestartInListenerStarves` (on `ServerRepairs.SignalledState`) | `DistriServer.Accept` (restart served: `ServerRepairs.RestartAfterAcceptServes`) |

=== FILE: connection.dfy ===
/**
  The per-connection `message` handler of `DistriServer` (index.js:139-216)
  with the transport removed: a message is undecodable, the JSON value
  `null`, or some other decoded value, and the connection's only state is
  the index it holds.
 */
module Connection {
  import opened Wrappers
  import opened DistriServer
  import opened ServerInvariants

  /**
    A decoded message. `plain` says the value is a plain object; `kind` is
    `responseType`, with "" standing for a missing or falsy field; `response`
    is absent when the field is `undefined`.
   */
  datatype Message<S> = Message(plain: bool, kind: string, response: Option<S>)

  /**
    The result of `JSON.parse` on a frame. `null` is kept apart because the
    shape test reads its `constructor`, which throws a `TypeError`.
   */
  datatype Parsed<S> = Undecodable | NullValue | Decoded(message: Message<S>)

  /** What the server does with one message. */
  datatype Action<S> = Ignore | Throw | SendFile | GetWork | Submit(solution: S)

  /** The shape test of index.js:149: a plain object with a response and a non-empty type. */
  predicate Shaped<S>(m: Message<S>) {
    m.plain && m.response.Some? && m.kind != ""
  }

  /**
    Dispatch on `responseType`. Undecodable or misshapen messages and
    unknown types are ignored; `null` makes the shape test throw. The file
    is sent on every `request`, since `sentFile` is never set.
   */
  function Classify<S>(parsed: Parsed<S>): (a: Action<S>)
    ensures parsed.Undecodable? ==> a == Ignore
    ensures a.Throw? <==> parsed.NullValue?
    ensures parsed.Decoded? && !Shaped(parsed.message) ==> a == Ignore
    ensures a.SendFile? <==> parsed.Decoded? && Shaped(parsed.message) && parsed.message.kind == "request"
    ensures a.GetWork? <==> parsed.Decoded? && Shaped(parsed.message) && parsed.message.kind == "request_work"
    ensures a.Submit? <==> parsed.Decoded? && Shaped(parsed.message) && parsed.message.kind == "submit_work"
    ensures a.Submit? ==> a.solution == parsed.message.response.value
  {
    match parsed
    case Undecodable => Ignore
    case NullValue => Throw
    case Decoded(m) =>
      if !Shaped(m) then Ignore
      else if m.kind == "request" then SendFile
      else if m.kind == "request_work" then GetWork
      else if m.kind == "submit_work" then Submit(m.response.value)
      else Ignore
  }

  /**
    The server afterwards, the index the connection holds afterwards, and
    whether the handler threw before touching either.
   */
  datatype Handled<W, S> = Handled(server: Server<W, S>, held: Option<int>, threw: bool)

  /**
    One message on a connection holding `held`. `rnd` is the random draw of
    an allocation and `admitted` the `work_submitted` outcome. The index a
    connection receives becomes the one it holds.
   */
  function OnMessage<W, S>(st: Server<W, S>, held: Option<int>, parsed: Parsed<S>, rnd: real, admitted: bool): (h: Handled<W, S>)
    requires WellFormed(st) && 0.0 <= rnd < 1.0
    requires held.Some? ==> held.value in st.held
    ensures WellFormed(h.server)
    ensures h.held.Some? ==> h.held.value in h.server.held
    ensures h.threw <==> parsed.NullValue?
    ensures h.threw ==> h.server == st && h.held == held
    ensures Classify(parsed).Ignore? || Classify(parsed).SendFile? ==> h == Handled(st, held, false)
    ensures Classify(parsed).GetWork? ==> h.server == Allocate(st, rnd).server
    ensures Classify(parsed).GetWork? ==>
      h.held == if Allocate(st, rnd).got.Some? then Allocate(st, rnd).got else held
    ensures Classify(parsed).GetWork? && Exhausted(st) ==> h == Handled(st, held, false)
    ensures Classify(parsed).GetWork? && !Exhausted(st) ==> h.held.Some? && h.held.value in st.remaining
    ensures Classify(parsed).Submit? ==>
      var s := SubmitWork(st, held, Classify(parsed).solution, admitted, rnd);
      h == Handled(s.server, s.next, false)
    ensures Classify(parsed).Submit? && held.None? ==> h == Handled(st, None, false)
    ensures Classify(parsed).Submit? ==> h.server.userCount == st.userCount && h.server.solved == st.solved
  {
    match Classify(parsed)
    case Ignore => Handled(st, held, false)
    case Throw => Handled(st, held, true)
    case SendFile => Handled(st, held, false)
    case GetWork =>
      var a := Allocate(st, rnd);
      if a.got.Some? then Handled(a.server, a.got, false)
      else
        assert held.Some? ==> held.value in a.server.held;
        Handled(a.server, held, false)
    case Submit(solution) =>
      var s := SubmitWork(st, held, solution, admitted, rnd);
      assert s.next.Some? ==> s.next.value in s.server.held;
      Handled(s.server, s.next, false)
  }

  /** Whatever a message does, a server that keeps its bookkeeping keeps it. */
  lemma OnMessagePreservesValid<W, S>(st: Server<W, S>, held: Option<int>, parsed: Parsed<S>, rnd: real, admitted: bool)
    requires Valid(st) && 0.0 <= rnd < 1.0
    requires held.Some? ==> held.value in st.held
    ensures Valid(OnMessage(st, held, parsed, rnd, admitted).server)
  {
    match Classify(parsed)
    case GetWork => AllocatePreservesValid(st, rnd);
    case Submit(solution) => SubmitWorkPreservesValid(st, held, solution, admitted, rnd);
    case _ =>
  }
}

=== FILE: distri_server.dfy ===
/**
  The work-distribution bookkeeping of `DistriServer` (index.js) as pure
  transitions over an explicit server record. The WebSocket layer, the
  EventEmitter and the promises are replaced by parameters: the random draw,
  the index a connection holds, and the accept/reject outcome of each
  listener. Outstanding workgroup decisions are kept in `awaiting`, so that
  they may be resolved in any order.
 */
module DistriServer {
  import opened Wrappers
  import opened SortedIndices

  /** One `DistriProblem`: the work, the clients holding it, the solutions so far. */
  datatype Problem<W, S> = Problem(work: W, workers: int, solutions: seq<S>)

  /** Clients on the problem plus solutions already in: its used capacity. */
  function Load<W, S>(p: Problem<W, S>): int {
    p.workers + |p.solutions|
  }

  /**
    The server's state. `strength` is `options.verificationStrength` and
    `solved` is the field the source calls `solutions`. The two last fields
    make explicit what the source keeps in closures: `held` is the multiset
    of indices held by open connections (each connection's `ind`), and
    `awaiting` the items whose `workgroup_complete` decision is outstanding.
   */
  datatype Server<W, S> = Server(
    strength: int,
    session: seq<Problem<W, S>>,
    remaining: seq<int>,
    pending: int,
    solved: int,
    userCount: int,
    held: multiset<int>,
    awaiting: set<int>)

  /** The server right after construction: nothing to do, nobody connected. */
  function Start<W, S>(strength: int): (st: Server<W, S>)
    ensures st.strength == strength && st.session == [] && st.remaining == []
    ensures st.pending == 0 && st.solved == 0 && st.userCount == 0
    ensures st.held == multiset{} && st.awaiting == {}
  {
    Server(strength, [], [], 0, 0, 0, multiset{}, {})
  }

  /** Every index the server stores points into the session; `remaining` is ordered. */
  ghost predicate WellFormed<W, S>(st: Server<W, S>) {
    && StrictlySorted(st.remaining)
    && (forall e :: e in st.remaining ==> 0 <= e < |st.session|)
    && (forall e :: e in st.held ==> 0 <= e < |st.session|)
    && (forall e :: e in st.awaiting ==> 0 <= e < |st.session|)
  }

  /** The guard of `randomIndGenerator` under which it answers -1. */
  predicate Exhausted<W, S>(st: Server<W, S>) {
    |st.remaining| == 0 || st.pending + st.solved > |st.session|
  }

  /**
    `randomIndGenerator`: -1 when no work is available, otherwise the element
    of `remaining` at position `floor(rnd * |remaining|)`, where `rnd` is the
    value of `Math.random()`.
   */
  function ChooseIndex<W, S>(st: Server<W, S>, rnd: real): (r: int)
    requires 0.0 <= rnd < 1.0
    ensures Exhausted(st) ==> r == -1
    ensures !Exhausted(st) ==> r in st.remaining
  {
    if Exhausted(st) then -1
    else
      var n := |st.remaining| as real;
      assert rnd * n < n;
      st.remaining[(rnd * n).Floor]
  }

  /** Every position of `remaining` is picked by some draw: no open problem is out of reach. */
  lemma EveryOpenIndexReachable<W, S>(st: Server<W, S>, k: nat)
    requires !Exhausted(st) && k < |st.remaining|
    ensures var rnd := k as real / |st.remaining| as real;
      0.0 <= rnd < 1.0 && ChooseIndex(st, rnd) == st.remaining[k]
  {
    var n := |st.remaining| as real;
    var rnd := k as real / n;
    ScaledDraw(k as real, n);
    assert (rnd * n).Floor == k;
    assert 0 <= (rnd * n).Floor < |st.remaining|;
    var c := ChooseIndex(st, rnd);
    assert c == st.remaining[(rnd * n).Floor];
  }

  /** A fraction `k / n` below 1 scales back to `k`. */
  lemma ScaledDraw(k: real, n: real)
    requires 0.0 <= k < n
    ensures 0.0 <= k / n < 1.0 && (k / n) * n == k
  {
    assert (k / n) * n == k;
  }

  /** What `workGetter` leaves behind, and the index it handed out (None: "No work available"). */
  datatype Handout<W, S> = Handout(server: Server<W, S>, got: Option<int>)

  /**
    `workGetter`: counts one more worker on the chosen problem and drops its
    index from `remaining` once workers plus solutions reach the
    verification strength.
   */
  function Allocate<W, S>(st: Server<W, S>, rnd: real): (h: Handout<W, S>)
    requires WellFormed(st) && 0.0 <= rnd < 1.0
    ensures WellFormed(h.server)
    ensures h.got.None? <==> Exhausted(st)
    ensures h.got.None? ==> h.server == st
    ensures h.got.Some? ==>
      var i := h.got.value;
      var t := h.server;
      && i in st.remaining
      && |t.session| == |st.session|
      && t.session[i] == st.session[i].(workers := st.session[i].workers + 1)
      && (forall j :: 0 <= j < |st.session| && j != i ==> t.session[j] == st.session[j])
      && t.remaining == (if Load(t.session[i]) == st.strength then Without(st.remaining, i) else st.remaining)
      && t.held == st.held + multiset{i}
      && t == st.(session := t.session, remaining := t.remaining, held := t.held)
  {
    var i := ChooseIndex(st, rnd);
    if i == -1 then Handout(st, None)
    else
      var p := st.session[i].(workers := st.session[i].workers + 1);
      var k := Find(st.remaining, i);
      var remaining :=
        if Load(p) == st.strength && k >= 0 then
          RemoveFoundIsWithout(st.remaining, k);
          RemoveAt(st.remaining, k)
        else st.remaining;
      Handout(st.(session := st.session[i := p], remaining := remaining, held := st.held + multiset{i}), Some(i))
  }

  /**
    The `.then` of an admitted submission: the solution is appended to the
    item and its worker released; the connection no longer holds the index.
   */
  function Record<W, S>(st: Server<W, S>, i: int, solution: S): (r: Server<W, S>)
    requires WellFormed(st) && i in st.held
    ensures WellFormed(r)
    ensures |r.session| == |st.session|
    ensures r.session[i].solutions == st.session[i].solutions + [solution]
    ensures r.session[i].workers == st.session[i].workers - 1
    ensures r.session[i].work == st.session[i].work
    ensures Load(r.session[i]) == Load(st.session[i])
    ensures forall j :: 0 <= j < |st.session| && j != i ==> r.session[j] == st.session[j]
    ensures r.held == st.held - multiset{i}
    ensures r == st.(session := r.session, held := r.held)
  {
    var p := st.session[i];
    st.(session := st.session[i := p.(solutions := p.solutions + [solution], workers := p.workers - 1)],
        held := st.held - multiset{i})
  }

  /** The state after a `submit_work` message and the next index handed to the submitter. */
  datatype Submission<W, S> = Submission(server: Server<W, S>, next: Option<int>)

  /**
    A `submit_work` message from a connection holding `held`. `admitted` is
    the outcome of the `work_submitted` listener (true when none is
    registered). A refused solution only clears the connection's index: the
    source decrements the server's `workers` property, not the item's. With
    no index held the source throws inside the promise and nothing changes.
   */
  function SubmitWork<W, S>(st: Server<W, S>, held: Option<int>, solution: S, admitted: bool, rnd: real): (r: Submission<W, S>)
    requires WellFormed(st) && 0.0 <= rnd < 1.0
    requires held.Some? ==> held.value in st.held
    ensures WellFormed(r.server)
    ensures held.None? ==> r.server == st && r.next == None
    ensures held.Some? && !admitted ==>
      r.server == st.(held := st.held - multiset{held.value}) && r.next == None
    ensures held.Some? && admitted ==> r == SubmitAdmitted(st, held.value, solution, rnd)
  {
    match held
    case None => Submission(st, None)
    case Some(i) =>
      if !admitted then Submission(st.(held := st.held - multiset{i}), None)
      else SubmitAdmitted(st, i, solution, rnd)
  }

  /**
    The `.then` of an admitted submission: the solution is recorded, new
    work is handed to the submitter, and the item becomes pending exactly
    when it now has `strength` solutions.
   */
  function SubmitAdmitted<W, S>(st: Server<W, S>, i: int, solution: S, rnd: real): (r: Submission<W, S>)
    requires WellFormed(st) && 0.0 <= rnd < 1.0 && i in st.held
    ensures WellFormed(r.server)
    ensures |r.server.session| == |st.session|
    ensures r.server.session[i].solutions == st.session[i].solutions + [solution]
    ensures r.server.session[i].work == st.session[i].work
    ensures r.server.session[i].workers == st.session[i].workers - 1 + (if r.next == Some(i) then 1 else 0)
    ensures forall j :: 0 <= j < |st.session| && j != i && r.next != Some(j) ==> r.server.session[j] == st.session[j]
    ensures forall j :: 0 <= j < |st.session| ==> |r.server.session[j].solutions| == |st.session[j].solutions| + (if j == i then 1 else 0)
    ensures r.server.held == st.held - multiset{i} + (if r.next.Some? then multiset{r.next.value} else multiset{})
    ensures |st.session[i].solutions| + 1 == st.strength ==> r.server.pending == st.pending + 1 && r.server.awaiting == st.awaiting + {i}
    ensures |st.session[i].solutions| + 1 != st.strength ==> r.server.pending == st.pending && r.server.awaiting == st.awaiting
    ensures r.server.solved == st.solved && r.server.strength == st.strength && r.server.userCount == st.userCount
    ensures r.next.None? <==> Exhausted(st)
    ensures r.next.Some? ==> r.next.value in st.remaining
    ensures r.next.Some? && r.next.value != i ==>
      var k := r.next.value;
      r.server.session[k] == st.session[k].(workers := st.session[k].workers + 1)
    ensures r.server.remaining ==
      if r.next.Some? && Load(r.server.session[r.next.value]) == st.strength
      then Without(st.remaining, r.next.value) else st.remaining
  {
    var h := Allocate(Record(st, i, solution), rnd);
    RecordThenAllocate(st, i, solution, rnd);
    Settle(h, i, |st.session[i].solutions| + 1 == st.strength)
  }

  /** Closing a submission: a problem whose last awaited solution arrived joins the set awaiting a decision. */
  function Settle<W, S>(h: Handout<W, S>, i: int, complete: bool): (r: Submission<W, S>)
    requires WellFormed(h.server) && 0 <= i < |h.server.session|
    ensures WellFormed(r.server)
    ensures r.next == h.got
    ensures r.server == h.server.(pending := r.server.pending, awaiting := r.server.awaiting)
    ensures r.server.pending == h.server.pending + (if complete then 1 else 0)
    ensures r.server.awaiting == if complete then h.server.awaiting + {i} else h.server.awaiting
  {
    if complete then
      Submission(h.server.(pending := h.server.pending + 1, awaiting := h.server.awaiting + {i}), h.got)
    else
      Submission(h.server, h.got)
  }

  /** Recording a solution and handing out new work, item by item against the state before both. */
  lemma RecordThenAllocate<W, S>(st: Server<W, S>, i: int, solution: S, rnd: real)
    requires WellFormed(st) && 0.0 <= rnd < 1.0 && i in st.held
    ensures var h := Allocate(Record(st, i, solution), rnd); |h.server.session| == |st.session|
    ensures var h := Allocate(Record(st, i, solution), rnd); h.server.session[i].solutions == st.session[i].solutions + [solution]
    ensures var h := Allocate(Record(st, i, solution), rnd); h.server.session[i].work == st.session[i].work
    ensures var h := Allocate(Record(st, i, solution), rnd); h.server.session[i].workers == st.session[i].workers - 1 + (if h.got == Some(i) then 1 else 0)
    ensures var h := Allocate(Record(st, i, solution), rnd); forall j :: 0 <= j < |st.session| && j != i && h.got != Some(j) ==> h.server.session[j] == st.session[j]
    ensures var h := Allocate(Record(st, i, solution), rnd); forall j :: 0 <= j < |st.session| ==> |h.server.session[j].solutions| == |st.session[j].solutions| + (if j == i then 1 else 0)
    ensures var h := Allocate(Record(st, i, solution), rnd); h.server.held == st.held - multiset{i} + (if h.got.Some? then multiset{h.got.value} else multiset{})
    ensures var h := Allocate(Record(st, i, solution), rnd); h.got.None? <==> Exhausted(st)
    ensures var h := Allocate(Record(st, i, solution), rnd); h.got.Some? ==> h.got.value in st.remaining
    ensures var h := Allocate(Record(st, i, solution), rnd); h.got.Some? && h.got.value != i ==> h.server.session[h.got.value] == st.session[h.got.value].(workers := st.session[h.got.value].workers + 1)
    ensures var h := Allocate(Record(st, i, solution), rnd); h.server.remaining == if h.got.Some? && Load(h.server.session[h.got.value]) == st.strength then Without(st.remaining, h.got.value) else st.remaining
    ensures var h := Allocate(Record(st, i, solution), rnd); h.server == st.(session := h.server.session, remaining := h.server.remaining, held := h.server.held)
  {
    var recorded := Record(st, i, solution);
    var h := Allocate(recorded, rnd);
    if h.got.Some? {
      var k := h.got.value;
      assert h.server.session[k] == recorded.session[k].(workers := recorded.session[k].workers + 1);
      forall j | 0 <= j < |st.session| && j != k
        ensures h.server.session[j] == recorded.session[j]
      {
      }
    }
  }

  /** The state after a workgroup decision, and whether `all_work_complete` fired. */
  datatype Decision<W, S> = Decision(server: Server<W, S>, allDone: bool)

  /**
    The accept continuation of `workgroup_complete`: one fewer pending item,
    one more solved item, and when every item of the session is solved the
    session is emptied and the solved counter restarts. Both resets happen
    before `all_work_complete` is signalled; the source resets the counter
    only after the listener returns, which `ServerRepairs.SignalledState`
    models. The source also
    splices `remaining` at the item's position with no delete count, which
    truncates the array, but only when that position is above 0.
   */
  function Accept<W, S>(st: Server<W, S>, i: int): (d: Decision<W, S>)
    requires WellFormed(st) && i in st.awaiting
    ensures d.allDone <==> st.solved + 1 == |st.session|
    ensures d.allDone ==> d.server.session == [] && d.server.solved == 0
    ensures !d.allDone ==> d.server.session == st.session && d.server.solved == st.solved + 1
    ensures d.server.pending == st.pending - 1 && d.server.awaiting == st.awaiting - {i}
    ensures i !in st.remaining ==> d.server.remaining == st.remaining
    ensures i in st.remaining && i != st.remaining[0] ==> |d.server.remaining| < |st.remaining|
    ensures d.server.held == st.held && d.server.strength == st.strength && d.server.userCount == st.userCount
  {
    var k := Find(st.remaining, i);
    var remaining := if k > 0 then Truncate(st.remaining, k) else st.remaining;
    var st' := st.(pending := st.pending - 1, awaiting := st.awaiting - {i},
                   remaining := remaining, solved := st.solved + 1);
    if st'.solved == |st'.session| then Decision(st'.(session := [], solved := 0), true)
    else Decision(st', false)
  }

  /**
    The reject continuation of `workgroup_complete`: one fewer pending item,
    the item starts over with no solutions and no workers, and its index
    goes back into `remaining` unless the binary search already finds it.
   */
  function Reject<W, S>(st: Server<W, S>, i: int): (r: Server<W, S>)
    requires WellFormed(st) && i in st.awaiting
    ensures WellFormed(r)
    ensures |r.session| == |st.session|
    ensures r.session[i] == Problem(st.session[i].work, 0, [])
    ensures forall j :: 0 <= j < |st.session| && j != i ==> r.session[j] == st.session[j]
    ensures forall e :: e in r.remaining <==> e in st.remaining || e == i
    ensures |r.remaining| == |st.remaining| + (if i in st.remaining then 0 else 1)
    ensures r.pending == st.pending - 1 && r.awaiting == st.awaiting - {i}
    ensures r == st.(session := r.session, remaining := r.remaining, pending := r.pending, awaiting := r.awaiting)
  {
    var remaining := Reinsert(st.remaining, i);
    st.(session := st.session[i := Problem(st.session[i].work, 0, [])],
        remaining := remaining, pending := st.pending - 1, awaiting := st.awaiting - {i})
  }

  /** A new WebSocket connection. */
  function Connect<W, S>(st: Server<W, S>): (r: Server<W, S>)
    ensures r.userCount == st.userCount + 1
    ensures r.(userCount := st.userCount) == st
  {
    st.(userCount := st.userCount + 1)
  }

  /**
    The `close` handler: one fewer user, and the held item, if any, loses a
    worker. The index is not put back into `remaining`.
   */
  function Disconnect<W, S>(st: Server<W, S>, held: Option<int>): (r: Server<W, S>)
    requires WellFormed(st)
    requires held.Some? ==> held.value in st.held
    ensures WellFormed(r)
    ensures r.userCount == st.userCount - 1
    ensures held.None? ==> r == st.(userCount := r.userCount)
    ensures held.Some? ==>
      var i := held.value;
      && |r.session| == |st.session|
      && r.session[i] == st.session[i].(workers := st.session[i].workers - 1)
      && (forall j :: 0 <= j < |st.session| && j != i ==> r.session[j] == st.session[j])
      && r.held == st.held - multiset{i}
      && r == st.(userCount := r.userCount, session := r.session, held := r.held)
  {
    match held
    case None => st.(userCount := st.userCount - 1)
    case Some(i) =>
      st.(userCount := st.userCount - 1,
          session := st.session[i := st.session[i].(workers := st.session[i].workers - 1)],
          held := st.held - multiset{i})
  }

  /** The state after `addWork`, and whether the session was empty (clients get work). */
  datatype Added<W, S> = Added(server: Server<W, S>, ready: bool)

  /**
    `addWork`: appends each item at the next free index with no workers and no
    solutions, pushes those indices onto `remaining` and sorts it.
   */
  function AddWork<W, S>(st: Server<W, S>, work: seq<W>): (a: Added<W, S>)
    ensures a.ready <==> |st.session| == 0
    ensures |a.server.session| == |st.session| + |work|
    ensures forall j :: 0 <= j < |st.session| ==> a.server.session[j] == st.session[j]
    ensures forall j :: |st.session| <= j < |a.server.session| ==> a.server.session[j] == Problem(work[j - |st.session|], 0, [])
    ensures Sorted(a.server.remaining)
    ensures multiset(a.server.remaining) == multiset(st.remaining) + multiset(Range(|st.session|, |st.session| + |work|))
    ensures WellFormed(st) ==> a.server.remaining == st.remaining + Range(|st.session|, |st.session| + |work|)
    ensures WellFormed(st) ==> forall e :: e in a.server.remaining <==> e in st.remaining || |st.session| <= e < |st.session| + |work|
    ensures WellFormed(st) ==> WellFormed(a.server)
    ensures a.server == st.(session := a.server.session, remaining := a.server.remaining)
  {
    var n := |st.session|;
    var remaining := PushRun(st.remaining, n, |work|);
    AppendUnstarted(st.session, work);
    AddKeepsWellFormed(st, work);
    Added(st.(session := st.session + Unstarted(work), remaining := remaining), n == 0)
  }

  /** The appended session keeps the old items and adds the new ones at the end. */
  lemma AppendUnstarted<W, S>(session: seq<Problem<W, S>>, work: seq<W>)
    ensures var t := session + Unstarted(work);
      && |t| == |session| + |work|
      && (forall j :: 0 <= j < |session| ==> t[j] == session[j])
      && (forall j :: |session| <= j < |t| ==> t[j] == Problem(work[j - |session|], 0, []))
  {
  }

  /** Indices past the old session are valid once the new items are appended. */
  lemma AddKeepsWellFormed<W, S>(st: Server<W, S>, work: seq<W>)
    ensures WellFormed(st) ==>
      WellFormed(st.(session := st.session + Unstarted(work), remaining := PushRun(st.remaining, |st.session|, |work|)))
  {
    if WellFormed(st) {
      var n := |st.session|;
      var remaining := PushRun(st.remaining, n, |work|);
      assert forall e :: e in remaining ==> 0 <= e < n + |work|;
    }
  }

  /** The new problems `addWork` appends: no workers, no solutions. */
  function Unstarted<W, S>(work: seq<W>): (r: seq<Problem<W, S>>)
    ensures |r| == |work|
    ensures forall k :: 0 <= k < |work| ==> r[k] == Problem(work[k], 0, [])
  {
    seq(|work|, k requires 0 <= k < |work| => Problem(work[k], 0, []))
  }

  /** The states and replies of `server.clients.map(workGetter)`, one draw per client. */
  datatype Round<W, S> = Round(server: Server<W, S>, handed: seq<Option<int>>)

  /** Hands work to each connected client in turn, as `addWork` does when the session was empty. */
  function Broadcast<W, S>(st: Server<W, S>, draws: seq<real>): (r: Round<W, S>)
    requires WellFormed(st)
    requires forall k :: 0 <= k < |draws| ==> 0.0 <= draws[k] < 1.0
    ensures WellFormed(r.server)
    ensures |r.handed| == |draws|
    ensures |r.server.session| == |st.session|
    ensures r.server.held == st.held + multiset(Given(r.handed))
    ensures r.server.strength == st.strength && r.server.pending == st.pending && r.server.solved == st.solved
    ensures r.server.awaiting == st.awaiting && r.server.userCount == st.userCount
    ensures draws != [] ==> (r.handed[0].None? <==> Exhausted(st))
    decreases |draws|
  {
    if draws == [] then Round(st, [])
    else
      var h := Allocate(st, draws[0]);
      var rest := Broadcast(h.server, draws[1..]);
      HeldAfterRound(st.held, h.server.held, h.got, rest.handed);
      Round(rest.server, [h.got] + rest.handed)
  }

  /**
    Every client is served while work lasts: an exhausted server is left
    alone, and a round that leaves some client without work ends exhausted.
   */
  lemma {:induction false} BroadcastServesClients<W, S>(st: Server<W, S>, draws: seq<real>)
    requires WellFormed(st)
    requires forall k :: 0 <= k < |draws| ==> 0.0 <= draws[k] < 1.0
    ensures Exhausted(st) ==> Broadcast(st, draws).server == st && Given(Broadcast(st, draws).handed) == []
    ensures |Given(Broadcast(st, draws).handed)| < |draws| ==> Exhausted(Broadcast(st, draws).server)
    decreases |draws|
  {
    if draws != [] {
      var h := Allocate(st, draws[0]);
      BroadcastServesClients(h.server, draws[1..]);
      ExhaustedAfterRound(st, draws[0], Broadcast(h.server, draws[1..]));
    }
  }

  /** Over a round, each problem gains one worker per time its index is handed out, and nothing else changes in it. */
  lemma {:induction false} BroadcastSessions<W, S>(st: Server<W, S>, draws: seq<real>)
    requires WellFormed(st)
    requires forall k :: 0 <= k < |draws| ==> 0.0 <= draws[k] < 1.0
    ensures forall j :: 0 <= j < |st.session| ==>
      Broadcast(st, draws).server.session[j]
        == st.session[j].(workers := st.session[j].workers + multiset(Given(Broadcast(st, draws).handed))[j])
    decreases |draws|
  {
    if draws != [] {
      var h := Allocate(st, draws[0]);
      BroadcastSessions(h.server, draws[1..]);
      SessionAfterRound(st, draws[0], Broadcast(h.server, draws[1..]));
    }
  }

  /** One allocation followed by the rest of a round: who ends up without work. */
  lemma ExhaustedAfterRound<W, S>(st: Server<W, S>, rnd: real, rest: Round<W, S>)
    requires WellFormed(st) && 0.0 <= rnd < 1.0
    requires Exhausted(Allocate(st, rnd).server) ==> rest.server == Allocate(st, rnd).server && Given(rest.handed) == []
    requires |Given(rest.handed)| < |rest.handed| ==> Exhausted(rest.server)
    ensures Exhausted(st) ==> rest.server == st && Given([Allocate(st, rnd).got] + rest.handed) == []
    ensures |Given([Allocate(st, rnd).got] + rest.handed)| < 1 + |rest.handed| ==> Exhausted(rest.server)
  {
    GivenCons(Allocate(st, rnd).got, rest.handed);
  }

  /** One allocation followed by the rest of a round: the workers each problem gains. */
  lemma SessionAfterRound<W, S>(st: Server<W, S>, rnd: real, rest: Round<W, S>)
    requires WellFormed(st) && 0.0 <= rnd < 1.0
    requires |rest.server.session| == |st.session|
    requires forall j :: 0 <= j < |st.session| ==>
      rest.server.session[j] == Allocate(st, rnd).server.session[j].(workers := Allocate(st, rnd).server.session[j].workers + multiset(Given(rest.handed))[j])
    ensures forall j :: 0 <= j < |st.session| ==>
      rest.server.session[j] == st.session[j].(workers := st.session[j].workers + multiset(Given([Allocate(st, rnd).got] + rest.handed))[j])
  {
    var h := Allocate(st, rnd);
    forall j | 0 <= j < |st.session|
      ensures rest.server.session[j] == st.session[j].(workers := st.session[j].workers + multiset(Given([h.got] + rest.handed))[j])
    {
      AllocateGainAt(st, rnd, j);
      GivenCountCons(h.got, rest.handed, j);
    }
  }

  /** The workers one allocation adds to problem `j`. */
  lemma AllocateGainAt<W, S>(st: Server<W, S>, rnd: real, j: int)
    requires WellFormed(st) && 0.0 <= rnd < 1.0 && 0 <= j < |st.session|
    ensures |Allocate(st, rnd).server.session| == |st.session|
    ensures Allocate(st, rnd).server.session[j]
      == st.session[j].(workers := st.session[j].workers + (if Allocate(st, rnd).got == Some(j) then 1 else 0))
  {
  }

  /** How often `j` is handed out by one reply followed by others. */
  lemma GivenCountCons(got: Option<int>, rest: seq<Option<int>>, j: int)
    ensures multiset(Given([got] + rest))[j] == (if got == Some(j) then 1 else 0) + multiset(Given(rest))[j]
  {
    GivenCons(got, rest);
  }

  /** The indices of one reply followed by others. */
  lemma GivenCons(got: Option<int>, rest: seq<Option<int>>)
    ensures Given([got] + rest) == (if got.Some? then [got.value] else []) + Given(rest)
  {
    assert ([got] + rest)[1..] == rest;
  }

  /** One reply followed by the rest of the round adds up to the whole round's indices. */
  lemma HeldAfterRound(before: multiset<int>, after: multiset<int>, got: Option<int>, rest: seq<Option<int>>)
    requires after == before + (if got.Some? then multiset{got.value} else multiset{})
    ensures after + multiset(Given(rest)) == before + multiset(Given([got] + rest))
  {
    GivenAppend([got], rest);
    assert Given([got]) == if got.Some? then [got.value] else [];
  }

  /** The indices actually handed out in a sequence of replies. */
  function Given(replies: seq<Option<int>>): (r: seq<int>)
    ensures |r| <= |replies|
    ensures forall k :: 0 <= k < |replies| && replies[k].Some? ==> replies[k].value in r
  {
    if replies == [] then []
    else (if replies[0].Some? then [replies[0].value] else []) + Given(replies[1..])
  }

  lemma {:induction false} GivenAppend(a: seq<Option<int>>, b: seq<Option<int>>)
    ensures Given(a + b) == Given(a) + Given(b)
    decreases |a|
  {
    if a != [] {
      GivenAppend(a[1..], b);
      var head := if a[0].Some? then [a[0].value] else [];
      assert (a + b)[0] == a[0];
      assert (a + b)[1..] == a[1..] + b;
      assert Given(a + b) == head + Given(a[1..] + b);
      assert Given(a) == head + Given(a[1..]);
    } else {
      assert a + b == b;
    }
  }

  /**
    The default policy when no listener is registered: the submission is
    admitted and, if it completes the workgroup, the workgroup is accepted
    at once, so no decision is ever left outstanding.
   */
  datatype Outcome<W, S> = Outcome(server: Server<W, S>, next: Option<int>, allDone: bool)

  function SubmitUnattended<W, S>(st: Server<W, S>, held: Option<int>, solution: S, rnd: real): (o: Outcome<W, S>)
    requires WellFormed(st) && 0.0 <= rnd < 1.0
    requires held.Some? ==> held.value in st.held
    ensures held.None? ==> o.server == st && o.next == None && !o.allDone
    ensures held.Some? && held.value !in st.awaiting ==>
      o.server.awaiting == st.awaiting && o.server.pending == st.pending
    ensures held.Some? ==>
      var complete := |st.session[held.value].solutions| + 1 == st.strength;
      && (o.allDone <==> complete && st.solved + 1 == |st.session|)
      && (!o.allDone ==> o.server.solved == st.solved + (if complete then 1 else 0))
      && (o.allDone ==> o.server.session == [] && o.server.solved == 0)
    ensures held.Some? ==> o.next == SubmitAdmitted(st, held.value, solution, rnd).next
    ensures held.Some? && |st.session[held.value].solutions| + 1 != st.strength ==>
      o.server == SubmitAdmitted(st, held.value, solution, rnd).server
    ensures held.Some? && |st.session[held.value].solutions| + 1 == st.strength ==>
      var s := SubmitAdmitted(st, held.value, solution, rnd);
      held.value in s.server.awaiting && o.server == Accept(s.server, held.value).server
  {
    if held.None? then Outcome(st, None, false)
    else
      var i := held.value;
      ConcludeCounts(st, i, solution, rnd);
      Conclude(SubmitAdmitted(st, i, solution, rnd), i, |st.session[i].solutions| + 1 == st.strength)
  }

  /** The counters after a submission that is decided on the spot, against the state before it. */
  lemma ConcludeCounts<W, S>(st: Server<W, S>, i: int, solution: S, rnd: real)
    requires WellFormed(st) && 0.0 <= rnd < 1.0 && i in st.held
    ensures
      var complete := |st.session[i].solutions| + 1 == st.strength;
      var o := Conclude(SubmitAdmitted(st, i, solution, rnd), i, complete);
      && (i !in st.awaiting ==> o.server.awaiting == st.awaiting && o.server.pending == st.pending)
      && (o.allDone <==> complete && st.solved + 1 == |st.session|)
      && (!o.allDone ==> o.server.solved == st.solved + (if complete then 1 else 0))
      && (o.allDone ==> o.server.session == [] && o.server.solved == 0)
  {
  }

  /** Deciding on the spot whatever a submission completed. */
  function Conclude<W, S>(s: Submission<W, S>, i: int, complete: bool): (o: Outcome<W, S>)
    requires WellFormed(s.server) && (complete ==> i in s.server.awaiting)
    ensures o.next == s.next
    ensures !complete ==> o.server == s.server && !o.allDone
    ensures complete ==> o.server == Accept(s.server, i).server && o.allDone == Accept(s.server, i).allDone
  {
    if complete then
      var d := Accept(s.server, i);
      Outcome(d.server, s.next, d.allDone)
    else
      Outcome(s.server, s.next, false)
  }
}

=== FILE: server_invariants.dfy ===
/**
  The capacity invariant of the server and its preservation by every
  transition: no problem ever has more workers plus solutions than the
  verification strength, every index in `remaining` is a session index with
  spare capacity, and the counters agree with the items they count.
 */
module ServerInvariants {
  import opened Wrappers
  import opened SortedIndices
  import opened DistriServer

  /** The session indices `0 .. n - 1`. */
  function Indices(n: int): (r: set<int>)
    ensures forall i :: i in r <==> 0 <= i < n
    decreases n
  {
    if n <= 0 then {} else Indices(n - 1) + {n - 1}
  }

  /** Items whose workgroup was accepted: all solutions in and no decision outstanding. */
  function Accepted<W, S>(st: Server<W, S>): set<int> {
    set i | 0 <= i < |st.session| && |st.session[i].solutions| == st.strength && i !in st.awaiting
  }

  /**
    No problem is over capacity, `remaining` only lists problems with spare
    capacity, and every connection holding an index is counted among that
    problem's workers.
   */
  ghost predicate Capacity<W, S>(st: Server<W, S>)
    requires WellFormed(st)
  {
    && st.strength >= 1
    && (forall i :: 0 <= i < |st.session| ==> 0 <= st.session[i].workers && Load(st.session[i]) <= st.strength)
    && (forall e :: e in st.remaining ==> Load(st.session[e]) < st.strength)
    && (forall e :: e in st.held ==> st.held[e] <= st.session[e].workers)
  }

  /** `pending` counts the outstanding decisions, `solved` the accepted items. */
  ghost predicate Bookkeeping<W, S>(st: Server<W, S>)
    requires WellFormed(st)
  {
    && (forall e :: e in st.awaiting ==> |st.session[e].solutions| == st.strength)
    && st.pending == |st.awaiting|
    && st.solved == |Accepted(st)|
  }

  ghost predicate Valid<W, S>(st: Server<W, S>) {
    WellFormed(st) && Capacity(st) && Bookkeeping(st)
  }

  lemma {:induction false} IndicesCount(n: nat)
    ensures |Indices(n)| == n
  {
    if n > 0 {
      var below := Indices(n - 1);
      IndicesCount(n - 1);
      assert Indices(n) == below + {n - 1};
      assert n - 1 !in below;
    }
  }

  lemma SubsetCount(a: set<int>, b: set<int>)
    requires a <= b
    ensures |a| <= |b|
  {
    assert b == a + (b - a);
    assert a !! (b - a);
  }

  /** A set of session indices as large as the session is all of it. */
  lemma FullSubsetIsAll(a: set<int>, n: nat)
    requires a <= Indices(n) && |a| == n
    ensures a == Indices(n)
  {
    if a != Indices(n) {
      var k :| k in Indices(n) && k !in a;
      IndicesCount(n);
      SubsetCount(a, Indices(n) - {k});
    }
  }

  /** The server as constructed satisfies the invariant for any usable strength. */
  lemma StartValid<W, S>(strength: int)
    requires strength >= 1
    ensures Valid(Start<W, S>(strength))
  {
    var st := Start<W, S>(strength);
    assert Accepted(st) == {};
  }

  /**
    Pending plus accepted items never exceed the session, so the second half
    of the guard in `randomIndGenerator` never fires: it answers -1 exactly
    when `remaining` is empty.
   */
  lemma NeverOvercommitted<W, S>(st: Server<W, S>)
    requires Valid(st)
    ensures st.pending + st.solved <= |st.session|
    ensures Exhausted(st) <==> |st.remaining| == 0
  {
    var n := |st.session|;
    assert st.awaiting !! Accepted(st);
    assert st.awaiting + Accepted(st) <= Indices(n);
    SubsetCount(st.awaiting + Accepted(st), Indices(n));
    IndicesCount(n);
  }

  /** Two states that agree on strength, awaiting items and solution counts accept the same items. */
  lemma AcceptedAgree<W, S>(a: Server<W, S>, b: Server<W, S>)
    requires |a.session| == |b.session| && a.strength == b.strength && a.awaiting == b.awaiting
    requires forall i :: 0 <= i < |a.session| ==> |a.session[i].solutions| == |b.session[i].solutions|
    ensures Accepted(a) == Accepted(b)
  {
  }

  /** `workGetter` keeps capacity and only ever hands out an item with spare capacity. */
  lemma AllocateKeepsCapacity<W, S>(st: Server<W, S>, rnd: real)
    requires WellFormed(st) && Capacity(st) && 0.0 <= rnd < 1.0
    ensures Capacity(Allocate(st, rnd).server)
    ensures Allocate(st, rnd).got.Some? ==>
      var i := Allocate(st, rnd).got.value;
      0 <= i < |st.session| && Load(st.session[i]) < st.strength
  {
    var h := Allocate(st, rnd);
    if h.got.Some? {
      var i := h.got.value;
      var t := h.server;
      assert i in st.remaining;
      assert Load(t.session[i]) == Load(st.session[i]) + 1 <= st.strength;
      forall j | 0 <= j < |t.session| && j != i
        ensures 0 <= t.session[j].workers && Load(t.session[j]) <= t.strength
      {
        assert t.session[j] == st.session[j];
      }
      forall e | e in t.remaining ensures Load(t.session[e]) < t.strength {
        if e == i {
          assert t.remaining == st.remaining;
        } else {
          assert e in st.remaining && t.session[e] == st.session[e];
        }
      }
      forall e | e in t.held ensures t.held[e] <= t.session[e].workers {
        if e != i { assert e in st.held && t.session[e] == st.session[e]; }
      }
    }
  }

  /** `workGetter` keeps the whole invariant. */
  lemma AllocatePreservesValid<W, S>(st: Server<W, S>, rnd: real)
    requires Valid(st) && 0.0 <= rnd < 1.0
    ensures Valid(Allocate(st, rnd).server)
    ensures Allocate(st, rnd).got.Some? ==>
      var i := Allocate(st, rnd).got.value;
      0 <= i < |st.session| && Load(st.session[i]) < st.strength && i !in st.awaiting
  {
    AllocateKeepsCapacity(st, rnd);
    var h := Allocate(st, rnd);
    if h.got.Some? {
      AcceptedAgree(st, h.server);
    }
  }

  /** Recording a solution keeps capacity: the load of the item does not change. */
  lemma RecordKeepsCapacity<W, S>(st: Server<W, S>, i: int, solution: S)
    requires Valid(st) && i in st.held
    ensures Capacity(Record(st, i, solution))
    ensures |st.session[i].solutions| < st.strength
  {
    var t := Record(st, i, solution);
    forall e | e in t.held ensures t.held[e] <= t.session[e].workers {
      assert e in st.held;
    }
  }

  /**
    A submission keeps the invariant, whatever the `work_submitted` listener
    decides; the submitted item is never one with a decision outstanding.
   */
  lemma SubmitWorkPreservesValid<W, S>(st: Server<W, S>, held: Option<int>, solution: S, admitted: bool, rnd: real)
    requires Valid(st) && 0.0 <= rnd < 1.0
    requires held.Some? ==> held.value in st.held
    ensures Valid(SubmitWork(st, held, solution, admitted, rnd).server)
    ensures held.Some? ==> held.value !in st.awaiting
  {
    if held.Some? {
      var i := held.value;
      RecordKeepsCapacity(st, i, solution);
      if !admitted {
        var t := st.(held := st.held - multiset{i});
        AcceptedAgree(st, t);
        forall e | e in t.held ensures t.held[e] <= t.session[e].workers {
          assert e in st.held;
        }
      } else {
        SubmitAdmittedKeepsCapacity(st, i, solution, rnd);
        SubmitAdmittedKeepsBookkeeping(st, i, solution, rnd);
      }
    }
  }

  lemma SubmitAdmittedKeepsCapacity<W, S>(st: Server<W, S>, i: int, solution: S, rnd: real)
    requires Valid(st) && 0.0 <= rnd < 1.0 && i in st.held
    ensures Capacity(SubmitAdmitted(st, i, solution, rnd).server)
  {
    RecordKeepsCapacity(st, i, solution);
    var recorded := Record(st, i, solution);
    AllocateKeepsCapacity(recorded, rnd);
    var h := Allocate(recorded, rnd);
    var t := SubmitAdmitted(st, i, solution, rnd).server;
    assert t == h.server.(pending := t.pending, awaiting := t.awaiting);
  }

  lemma SubmitAdmittedKeepsBookkeeping<W, S>(st: Server<W, S>, i: int, solution: S, rnd: real)
    requires Valid(st) && 0.0 <= rnd < 1.0 && i in st.held
    ensures Bookkeeping(SubmitAdmitted(st, i, solution, rnd).server)
  {
    RecordKeepsCapacity(st, i, solution);
    var t := SubmitAdmitted(st, i, solution, rnd).server;
    var complete := |st.session[i].solutions| + 1 == st.strength;
    assert i !in st.awaiting;
    assert t.strength == st.strength && |t.session| == |st.session|;
    forall e | e in t.awaiting ensures |t.session[e].solutions| == t.strength {
      if e != i {
        assert e in st.awaiting;
      }
    }
    assert t.pending == |t.awaiting|;
    assert Accepted(t) == Accepted(st) by {
      forall j | 0 <= j < |st.session| ensures j in Accepted(t) <==> j in Accepted(st) {
        assert |t.session[j].solutions| == |st.session[j].solutions| + (if j == i then 1 else 0);
        if j == i && complete {
          assert i in t.awaiting;
        }
      }
    }
  }

  /** The item under decision is full, so it is neither in `remaining` nor held nor accepted. */
  lemma AwaitingIsFull<W, S>(st: Server<W, S>, i: int)
    requires Valid(st) && i in st.awaiting
    ensures i !in st.remaining && Find(st.remaining, i) < 0
    ensures st.session[i].workers == 0 && st.held[i] == 0
    ensures i !in Accepted(st)
  {
  }

  /** Accepting `i` adds exactly `i` to the accepted items. */
  lemma AcceptCountsOne<W, S>(st: Server<W, S>, i: int)
    requires Valid(st) && i in st.awaiting
    ensures Accepted(st.(awaiting := st.awaiting - {i})) == Accepted(st) + {i}
    ensures |Accepted(st.(awaiting := st.awaiting - {i}))| == st.solved + 1
  {
    AwaitingIsFull(st, i);
  }

  /**
    Accepting a workgroup keeps the invariant. The accepted index is never in
    `remaining`, so the truncating splice at index.js:192 never runs.
   */
  lemma AcceptPreservesValid<W, S>(st: Server<W, S>, i: int)
    requires Valid(st) && i in st.awaiting
    ensures Find(st.remaining, i) < 0
    ensures Valid(Accept(st, i).server)
  {
    AwaitingIsFull(st, i);
    var d := Accept(st, i);
    if d.allDone {
      AcceptLastResets(st, i);
      StartValid<W, S>(st.strength);
      AcceptedAgree(Start<W, S>(st.strength), d.server);
    } else {
      AcceptCountsOne(st, i);
      var mid := st.(awaiting := st.awaiting - {i});
      AcceptedAgree(mid, d.server);
    }
  }

  /**
    When the last item is accepted the server is back to its initial state,
    apart from the connected users: an `addWork` made once the signal has
    been handled starts a fresh cycle with zero pending and zero solved.
   */
  lemma AcceptLastResets<W, S>(st: Server<W, S>, i: int)
    requires Valid(st) && i in st.awaiting
    requires Accept(st, i).allDone
    ensures Accept(st, i).server == Start<W, S>(st.strength).(userCount := st.userCount)
  {
    LastLeavesOnlyFullItems(st, i);
    assert st.awaiting == {i} by {
      forall e | e in st.awaiting ensures e == i {
      }
    }
    FirstIsMember(st.remaining);
    assert st.held == multiset{} by {
      forall e | e in st.held ensures false {
      }
    }
  }

  /** When accepting `i` completes the session, every item is full and only `i` awaits a decision. */
  lemma LastLeavesOnlyFullItems<W, S>(st: Server<W, S>, i: int)
    requires Valid(st) && i in st.awaiting
    requires st.solved + 1 == |st.session|
    ensures forall j :: 0 <= j < |st.session| ==> |st.session[j].solutions| == st.strength && st.session[j].workers == 0
    ensures forall j :: j in st.awaiting ==> j == i
  {
    var mid := st.(awaiting := st.awaiting - {i});
    AcceptCountsOne(st, i);
    FullSubsetIsAll(Accepted(mid), |st.session|);
    forall j | j in st.awaiting ensures j == i {
      assert j in Accepted(mid);
    }
    forall j | 0 <= j < |st.session| ensures |st.session[j].solutions| == st.strength {
      assert j in Accepted(mid);
    }
  }

  /** Rejecting a workgroup keeps the invariant and the index is available again. */
  lemma RejectPreservesValid<W, S>(st: Server<W, S>, i: int)
    requires Valid(st) && i in st.awaiting
    ensures Valid(Reject(st, i))
    ensures i in Reject(st, i).remaining
  {
    var r := Reject(st, i);
    assert st.held[i] == 0;
    forall e | e in r.held ensures r.held[e] <= r.session[e].workers {
      assert e != i;
    }
    assert Accepted(r) == Accepted(st) by {
      forall j | 0 <= j < |st.session| ensures j in Accepted(r) <==> j in Accepted(st) {
      }
    }
  }

  /** A new connection changes nothing the invariant speaks of. */
  lemma ConnectPreservesValid<W, S>(st: Server<W, S>)
    requires Valid(st)
    ensures Valid(Connect(st))
  {
    AcceptedAgree(st, Connect(st));
  }

  /** A closed connection keeps the invariant: its item only loses load. */
  lemma DisconnectPreservesValid<W, S>(st: Server<W, S>, held: Option<int>)
    requires Valid(st)
    requires held.Some? ==> held.value in st.held
    ensures Valid(Disconnect(st, held))
  {
    var r := Disconnect(st, held);
    AcceptedAgree(st, r);
    if held.Some? {
      forall e | e in r.held ensures r.held[e] <= r.session[e].workers {
        assert e in st.held;
      }
    }
  }

  /** Adding work keeps the invariant: the new items are empty and listed in `remaining`. */
  lemma AddWorkPreservesValid<W, S>(st: Server<W, S>, work: seq<W>)
    requires Valid(st)
    ensures Valid(AddWork(st, work).server)
  {
    AddWorkKeepsCapacity(st, work);
    AddWorkKeepsBookkeeping(st, work);
  }

  lemma AddWorkKeepsCapacity<W, S>(st: Server<W, S>, work: seq<W>)
    requires Valid(st)
    ensures WellFormed(AddWork(st, work).server)
    ensures Capacity(AddWork(st, work).server)
  {
    var t := AddWork(st, work).server;
    var n := |st.session|;
    forall e | e in t.held ensures t.held[e] <= t.session[e].workers {
      assert e in st.held;
    }
  }

  lemma AddWorkKeepsBookkeeping<W, S>(st: Server<W, S>, work: seq<W>)
    requires Valid(st)
    ensures WellFormed(AddWork(st, work).server)
    ensures Bookkeeping(AddWork(st, work).server)
  {
    var t := AddWork(st, work).server;
    var n := |st.session|;
    assert Accepted(t) == Accepted(st) by {
      forall j | 0 <= j < |t.session| ensures j in Accepted(t) <==> j in Accepted(st) {
      }
    }
  }

  /** Handing work to every client in turn keeps the invariant. */
  lemma {:induction false} BroadcastPreservesValid<W, S>(st: Server<W, S>, draws: seq<real>)
    requires Valid(st)
    requires forall k :: 0 <= k < |draws| ==> 0.0 <= draws[k] < 1.0
    ensures Valid(Broadcast(st, draws).server)
    decreases |draws|
  {
    if draws != [] {
      AllocatePreservesValid(st, draws[0]);
      BroadcastPreservesValid(Allocate(st, draws[0]).server, draws[1..]);
    }
  }

  /** After one allocation, exactly the open problems that still have spare capacity stay open. */
  lemma AllocateRemaining<W, S>(st: Server<W, S>, rnd: real)
    requires WellFormed(st) && Capacity(st) && 0.0 <= rnd < 1.0
    ensures forall e :: e in Allocate(st, rnd).server.remaining <==>
      e in st.remaining && Load(Allocate(st, rnd).server.session[e]) < st.strength
  {
    var h := Allocate(st, rnd);
    AllocateKeepsCapacity(st, rnd);
    if h.got.Some? {
      var i := h.got.value;
      forall e | e in st.remaining && e != i
        ensures Load(h.server.session[e]) == Load(st.session[e])
      {
      }
    }
  }

  /**
    After a round, exactly the problems that were open and still have spare
    capacity are open: a round closes a problem only once it is full.
   */
  lemma {:induction false} BroadcastRemaining<W, S>(st: Server<W, S>, draws: seq<real>)
    requires WellFormed(st) && Capacity(st)
    requires forall k :: 0 <= k < |draws| ==> 0.0 <= draws[k] < 1.0
    ensures forall e :: e in Broadcast(st, draws).server.remaining <==>
      e in st.remaining && Load(Broadcast(st, draws).server.session[e]) < st.strength
    decreases |draws|
  {
    if draws != [] {
      var h := Allocate(st, draws[0]);
      var r := Broadcast(h.server, draws[1..]).server;
      AllocateRemaining(st, draws[0]);
      AllocateKeepsCapacity(st, draws[0]);
      BroadcastRemaining(h.server, draws[1..]);
      BroadcastSessions(h.server, draws[1..]);
      OpenAfterTwoSteps(st, h.server, r, multiset(Given(Broadcast(h.server, draws[1..]).handed)));
    }
  }

  /**
    Chaining the open set over two steps: when each step keeps open exactly
    the problems with spare capacity and the second only adds workers, so
    does the pair.
   */
  lemma OpenAfterTwoSteps<W, S>(a: Server<W, S>, b: Server<W, S>, c: Server<W, S>, gained: multiset<int>)
    requires WellFormed(a) && WellFormed(b) && b.strength == a.strength
    requires |b.session| == |a.session| && |c.session| == |a.session|
    requires forall e :: e in b.remaining <==> e in a.remaining && Load(b.session[e]) < a.strength
    requires forall e :: e in c.remaining <==> e in b.remaining && Load(c.session[e]) < a.strength
    requires forall j :: 0 <= j < |b.session| ==> c.session[j] == b.session[j].(workers := b.session[j].workers + gained[j])
    ensures forall e :: e in c.remaining <==> e in a.remaining && Load(c.session[e]) < a.strength
  {
    forall e
      ensures e in c.remaining <==> e in a.remaining && Load(c.session[e]) < a.strength
    {
      if e in a.remaining {
        assert Load(b.session[e]) <= Load(c.session[e]);
      }
    }
  }

  /** The default policy keeps the invariant and never leaves a decision outstanding. */
  lemma SubmitUnattendedPreservesValid<W, S>(st: Server<W, S>, held: Option<int>, solution: S, rnd: real)
    requires Valid(st) && 0.0 <= rnd < 1.0
    requires held.Some? ==> held.value in st.held
    ensures Valid(SubmitUnattended(st, held, solution, rnd).server)
    ensures SubmitUnattended(st, held, solution, rnd).server.awaiting == st.awaiting
  {
    SubmitWorkPreservesValid(st, held, solution, true, rnd);
    if held.Some? && |st.session[held.value].solutions| + 1 == st.strength {
      AcceptPreservesValid(SubmitWork(st, held, solution, true, rnd).server, held.value);
    }
  }
}

=== FILE: server_repairs.dfy ===
/**
  Two places where the server loses track of capacity, each exhibited on a
  concrete scenario, and the corrected transitions that the whole-server step
  relation uses; and the state a restart from `all_work_complete` observes.

  - A refused submission (index.js:211-214) decrements a `workers` property
    of the server instead of the item's, so the item keeps a worker that no
    connection holds.
  - A closing connection (index.js:218-223) releases its worker but never
    offers the index again, so an item with spare capacity can drop out of
    `remaining` for good.

  The corrected `Release` gives the worker back and re-offers the index, and
  with it two further invariants hold: every counted worker is a live
  connection (`Accounted`) and every item with spare capacity is on offer
  (`Offered`).
 */
module ServerRepairs {
  import opened Wrappers
  import opened SortedIndices
  import opened DistriServer
  import opened ServerInvariants

  /** Every item with spare capacity is listed in `remaining`. */
  ghost predicate Offered<W, S>(st: Server<W, S>) {
    forall i :: 0 <= i < |st.session| && Load(st.session[i]) < st.strength ==> i in st.remaining
  }

  /** Each item's worker count is exactly the number of connections holding it. */
  ghost predicate Accounted<W, S>(st: Server<W, S>) {
    forall i :: 0 <= i < |st.session| ==> st.session[i].workers == st.held[i]
  }

  ghost predicate Live<W, S>(st: Server<W, S>) {
    Offered(st) && Accounted(st)
  }

  /** One server, one item, verification strength 1, the item handed to one client. */
  function OneItemHandedOut(): (st: Server<int, int>)
    ensures Valid(st) && Live(st)
    ensures st.session == [Problem(7, 1, [])] && st.remaining == [] && st.held == multiset{0}
  {
    var st := Server(1, [Problem(7, 1, [])], [], 0, 0, 1, multiset{0}, {});
    assert Accepted(st) == {};
    st
  }

  /** The refused submission leaves a worker on the item that nobody holds. */
  lemma RefusedSubmissionLeaksWorker()
    ensures
      var st := OneItemHandedOut();
      var t := SubmitWork(st, Some(0), 42, false, 0.0).server;
      && t.session[0].workers == 1
      && t.held == multiset{}
      && !Accounted(t)
      && Load(t.session[0]) == t.strength && t.remaining == []
  {
    var st := OneItemHandedOut();
    var t := SubmitWork(st, Some(0), 42, false, 0.0).server;
    assert t.held[0] == 0;
  }

  /** Closing the connection frees the item's capacity but leaves it out of `remaining`. */
  lemma DisconnectStrandsItem()
    ensures
      var st := OneItemHandedOut();
      var t := Disconnect(st, Some(0));
      && Load(t.session[0]) == 0 < t.strength
      && t.remaining == []
      && t.awaiting == {}
      && !Offered(t)
  {
  }

  /**
    The server the `all_work_complete` listener observes when the last item
    is accepted (index.js:194-197): the session is already empty, but the
    solved counter is reset only after the listener returns, so it still
    counts the whole finished session.
   */
  function SignalledState<W, S>(st: Server<W, S>, i: int): (v: Server<W, S>)
    requires Valid(st) && i in st.awaiting && Accept(st, i).allDone
    ensures v == Start<W, S>(st.strength).(userCount := st.userCount, solved := |st.session|)
  {
    AcceptLastResets(st, i);
    Accept(st, i).server.(solved := st.solved + 1)
  }

  /**
    Restarting from the listener, as the Collatz example server does, hands
    out nothing when the new batch is shorter than the finished session:
    `pending + solutions` already exceeds the new session length.
   */
  lemma RestartInListenerStarves<W, S>(st: Server<W, S>, i: int, work: seq<W>, draws: seq<real>)
    requires Valid(st) && i in st.awaiting && Accept(st, i).allDone
    requires 0 < |work| < |st.session|
    requires forall k :: 0 <= k < |draws| ==> 0.0 <= draws[k] < 1.0
    ensures AddWork(SignalledState(st, i), work).ready
    ensures Given(Broadcast(AddWork(SignalledState(st, i), work).server, draws).handed) == []
  {
    var a := AddWork(SignalledState(st, i), work);
    assert Exhausted(a.server);
    BroadcastServesClients(a.server, draws);
  }

  /**
    With both counters reset before the signal, the same restart serves the
    first client whatever the size of the new batch.
   */
  lemma RestartAfterAcceptServes<W, S>(st: Server<W, S>, i: int, work: seq<W>, draws: seq<real>)
    requires Valid(st) && i in st.awaiting && Accept(st, i).allDone
    requires work != [] && draws != []
    requires forall k :: 0 <= k < |draws| ==> 0.0 <= draws[k] < 1.0
    ensures WellFormed(Accept(st, i).server)
    ensures AddWork(Accept(st, i).server, work).ready
    ensures Broadcast(AddWork(Accept(st, i).server, work).server, draws).handed[0].Some?
  {
    AcceptLastResets(st, i);
    var a := AddWork(Accept(st, i).server, work);
    assert a.server.remaining == Range(0, |work|);
    assert !Exhausted(a.server);
  }

  /** Gives back one worker of item `i` and offers the item again once it has spare capacity. */
  function Release<W, S>(st: Server<W, S>, i: int): (r: Server<W, S>)
    requires WellFormed(st) && i in st.held
    ensures WellFormed(r)
    ensures |r.session| == |st.session|
    ensures r.session[i] == st.session[i].(workers := st.session[i].workers - 1)
    ensures forall j :: 0 <= j < |st.session| && j != i ==> r.session[j] == st.session[j]
    ensures r.held == st.held - multiset{i}
    ensures forall e :: e in r.remaining <==> e in st.remaining || (e == i && Load(r.session[i]) < st.strength)
    ensures r == st.(session := r.session, remaining := r.remaining, held := r.held)
  {
    var p := st.session[i].(workers := st.session[i].workers - 1);
    var remaining := if Load(p) < st.strength then Reinsert(st.remaining, i) else st.remaining;
    st.(session := st.session[i := p], remaining := remaining, held := st.held - multiset{i})
  }

  /** The `close` handler with the index offered again. */
  function DisconnectFixed<W, S>(st: Server<W, S>, held: Option<int>): (r: Server<W, S>)
    requires WellFormed(st)
    requires held.Some? ==> held.value in st.held
    ensures WellFormed(r)
    ensures r.userCount == st.userCount - 1
    ensures held.None? ==> r == st.(userCount := r.userCount)
    ensures held.Some? ==> r == Release(st, held.value).(userCount := r.userCount)
  {
    match held
    case None => st.(userCount := st.userCount - 1)
    case Some(i) => Release(st, i).(userCount := st.userCount - 1)
  }

  /** `submit_work` with a refused submission releasing the item's own worker. */
  function SubmitWorkFixed<W, S>(st: Server<W, S>, held: Option<int>, solution: S, admitted: bool, rnd: real): (r: Submission<W, S>)
    requires WellFormed(st) && 0.0 <= rnd < 1.0
    requires held.Some? ==> held.value in st.held
    ensures WellFormed(r.server)
    ensures held.Some? && !admitted ==> r.server == Release(st, held.value) && r.next == None
    ensures held.None? || admitted ==> r == SubmitWork(st, held, solution, admitted, rnd)
  {
    if held.Some? && !admitted then Submission(Release(st, held.value), None)
    else SubmitWork(st, held, solution, admitted, rnd)
  }

  lemma ReleasePreservesValid<W, S>(st: Server<W, S>, i: int)
    requires Valid(st) && i in st.held
    ensures Valid(Release(st, i))
  {
    var r := Release(st, i);
    AcceptedAgree(st, r);
    forall e | e in r.held ensures r.held[e] <= r.session[e].workers {
      assert e in st.held;
    }
    forall e | e in r.remaining ensures Load(r.session[e]) < r.strength {
      if e != i { assert e in st.remaining; }
    }
  }

  lemma ReleaseKeepsLive<W, S>(st: Server<W, S>, i: int)
    requires Valid(st) && Live(st) && i in st.held
    ensures Live(Release(st, i))
  {
    var r := Release(st, i);
    forall j | 0 <= j < |r.session| && Load(r.session[j]) < r.strength ensures j in r.remaining {
      if j != i { assert j in st.remaining; }
    }
  }

  lemma SubmitWorkFixedKeepsLive<W, S>(st: Server<W, S>, held: Option<int>, solution: S, admitted: bool, rnd: real)
    requires Valid(st) && Live(st) && 0.0 <= rnd < 1.0
    requires held.Some? ==> held.value in st.held
    ensures Valid(SubmitWorkFixed(st, held, solution, admitted, rnd).server)
    ensures Live(SubmitWorkFixed(st, held, solution, admitted, rnd).server)
  {
    if held.Some? {
      var i := held.value;
      if !admitted {
        ReleasePreservesValid(st, i);
        ReleaseKeepsLive(st, i);
      } else {
        SubmitWorkPreservesValid(st, held, solution, admitted, rnd);
        var recorded := Record(st, i, solution);
        RecordKeepsCapacity(st, i, solution);
        RecordKeepsAccounts(st, i, solution);
        AllocateKeepsLiveOf(recorded, rnd);
        var h := Allocate(recorded, rnd);
        var t := SubmitWork(st, held, solution, admitted, rnd).server;
        assert t.session == h.server.session && t.remaining == h.server.remaining && t.held == h.server.held;
      }
    }
  }

  /** Recording keeps every load and moves the holder and the worker away together. */
  lemma RecordKeepsAccounts<W, S>(st: Server<W, S>, i: int, solution: S)
    requires Valid(st) && Live(st) && i in st.held
    ensures Live(Record(st, i, solution))
  {
    var r := Record(st, i, solution);
    forall j | 0 <= j < |r.session| && Load(r.session[j]) < r.strength ensures j in r.remaining {
      assert Load(r.session[j]) == Load(st.session[j]);
    }
  }

  /** `workGetter` keeps both liveness invariants on any well-formed state with capacity. */
  lemma AllocateKeepsLiveOf<W, S>(st: Server<W, S>, rnd: real)
    requires WellFormed(st) && Capacity(st) && Live(st) && 0.0 <= rnd < 1.0
    ensures Live(Allocate(st, rnd).server)
  {
    var h := Allocate(st, rnd);
    if h.got.Some? {
      var t := h.server;
      forall j | 0 <= j < |t.session| && Load(t.session[j]) < t.strength ensures j in t.remaining {
        assert j in st.remaining;
      }
    }
  }

  lemma AcceptKeepsLive<W, S>(st: Server<W, S>, i: int)
    requires Valid(st) && Live(st) && i in st.awaiting
    ensures Live(Accept(st, i).server)
  {
    AwaitingIsFull(st, i);
  }

  lemma RejectKeepsLive<W, S>(st: Server<W, S>, i: int)
    requires Valid(st) && Live(st) && i in st.awaiting
    ensures Live(Reject(st, i))
  {
    AwaitingIsFull(st, i);
    var r := Reject(st, i);
    forall j | 0 <= j < |r.session| && Load(r.session[j]) < r.strength ensures j in r.remaining {
      if j != i { assert j in st.remaining; }
    }
  }

  lemma AddWorkKeepsLive<W, S>(st: Server<W, S>, work: seq<W>)
    requires Valid(st) && Live(st)
    ensures Live(AddWork(st, work).server)
  {
    var t := AddWork(st, work).server;
    var n := |st.session|;
    forall j | 0 <= j < |t.session| ensures t.session[j].workers == t.held[j] {
      if j >= n {
        assert j !in st.held;
      }
    }
  }

  lemma {:induction false} BroadcastKeepsLive<W, S>(st: Server<W, S>, draws: seq<real>)
    requires Valid(st) && Live(st)
    requires forall k :: 0 <= k < |draws| ==> 0.0 <= draws[k] < 1.0
    ensures Live(Broadcast(st, draws).server)
    decreases |draws|
  {
    if draws != [] {
      AllocatePreservesValid(st, draws[0]);
      AllocateKeepsLiveOf(st, draws[0]);
      BroadcastKeepsLive(Allocate(st, draws[0]).server, draws[1..]);
    }
  }

  /** Whatever can happen to the server next. */
  datatype Event<W, S> =
    | Join
    | Leave(held: Option<int>)
    | RequestWork(rnd: real)
    | SubmitSolution(held: Option<int>, solution: S, admitted: bool, rnd: real)
    | Decide(index: int, accept: bool)
    | Add(work: seq<W>, draws: seq<real>)

  /** Random draws lie in [0, 1); held indices and decided items are the server's own. */
  ghost predicate Enabled<W, S>(st: Server<W, S>, e: Event<W, S>) {
    match e
    case Join => true
    case Leave(held) => held.Some? ==> held.value in st.held
    case RequestWork(rnd) => 0.0 <= rnd < 1.0
    case SubmitSolution(held, _, _, rnd) => 0.0 <= rnd < 1.0 && (held.Some? ==> held.value in st.held)
    case Decide(i, _) => i in st.awaiting
    case Add(_, draws) => |draws| == st.userCount && forall k :: 0 <= k < |draws| ==> 0.0 <= draws[k] < 1.0
  }

  /** The server's response to one event, with both repairs in place. */
  function Step<W, S>(st: Server<W, S>, e: Event<W, S>): (r: Server<W, S>)
    requires WellFormed(st) && Enabled(st, e)
  {
    match e
    case Join => Connect(st)
    case Leave(held) => DisconnectFixed(st, held)
    case RequestWork(rnd) => Allocate(st, rnd).server
    case SubmitSolution(held, solution, admitted, rnd) => SubmitWorkFixed(st, held, solution, admitted, rnd).server
    case Decide(i, accept) => if accept then Accept(st, i).server else Reject(st, i)
    case Add(work, draws) =>
      var a := AddWork(st, work);
      if a.ready then Broadcast(a.server, draws).server else a.server
  }

  /** Every event keeps the capacity invariant and both liveness invariants. */
  lemma StepPreservesInvariants<W, S>(st: Server<W, S>, e: Event<W, S>)
    requires Valid(st) && Live(st) && Enabled(st, e)
    ensures Valid(Step(st, e)) && Live(Step(st, e))
  {
    match e
    case Join =>
      ConnectPreservesValid(st);
    case Leave(held) =>
      LeaveKeepsInvariants(st, held);
    case RequestWork(rnd) =>
      AllocatePreservesValid(st, rnd);
      AllocateKeepsLiveOf(st, rnd);
    case SubmitSolution(held, solution, admitted, rnd) =>
      SubmitWorkFixedKeepsLive(st, held, solution, admitted, rnd);
    case Decide(i, accept) =>
      DecideKeepsInvariants(st, i, accept);
    case Add(work, draws) =>
      AddKeepsInvariants(st, work, draws);
  }

  lemma LeaveKeepsInvariants<W, S>(st: Server<W, S>, held: Option<int>)
    requires Valid(st) && Live(st) && (held.Some? ==> held.value in st.held)
    ensures Valid(DisconnectFixed(st, held)) && Live(DisconnectFixed(st, held))
  {
    if held.Some? {
      ReleasePreservesValid(st, held.value);
      ReleaseKeepsLive(st, held.value);
      AcceptedAgree(Release(st, held.value), DisconnectFixed(st, held));
    }
  }

  lemma DecideKeepsInvariants<W, S>(st: Server<W, S>, i: int, accept: bool)
    requires Valid(st) && Live(st) && i in st.awaiting
    ensures var r := if accept then Accept(st, i).server else Reject(st, i); Valid(r) && Live(r)
  {
    if accept {
      AcceptPreservesValid(st, i);
      AcceptKeepsLive(st, i);
    } else {
      RejectPreservesValid(st, i);
      RejectKeepsLive(st, i);
    }
  }

  lemma AddKeepsInvariants<W, S>(st: Server<W, S>, work: seq<W>, draws: seq<real>)
    requires Valid(st) && Live(st) && forall k :: 0 <= k < |draws| ==> 0.0 <= draws[k] < 1.0
    ensures var a := AddWork(st, work);
      var r := if a.ready then Broadcast(a.server, draws).server else a.server;
      Valid(r) && Live(r)
  {
    AddWorkPreservesValid(st, work);
    AddWorkKeepsLive(st, work);
    var a := AddWork(st, work);
    if a.ready {
      BroadcastPreservesValid(a.server, draws);
      BroadcastKeepsLive(a.server, draws);
    }
  }
}

=== FILE: sorted_indices.dfy ===
/**
  The `remaining` array of the server: a sequence of session indices kept in
  ascending order with the numeric comparator `(a, b) => a - b`, searched with
  the `binary-search` package and edited with `splice`, `push` and `sort`.
 */
module SortedIndices {

  /** Non-decreasing order: what `Array.prototype.sort` with `comparator` yields. */
  predicate Sorted(s: seq<int>) {
    forall i, j :: 0 <= i < j < |s| ==> s[i] <= s[j]
  }

  /** Strictly increasing order: sorted and free of duplicates. */
  predicate StrictlySorted(s: seq<int>) {
    forall i, j :: 0 <= i < j < |s| ==> s[i] < s[j]
  }

  /**
    The `binary-search` package on `s[lo..hi]`: the position of `x` when it is
    present, otherwise `~low`, i.e. `-(p + 1)` where `p` is the insertion point.
   */
  function Search(s: seq<int>, x: int, lo: nat, hi: nat): (r: int)
    requires lo <= hi <= |s|
    requires StrictlySorted(s)
    requires forall k :: 0 <= k < lo ==> s[k] < x
    requires forall k :: hi <= k < |s| ==> x < s[k]
    ensures 0 <= r ==> r < |s| && s[r] == x
    ensures r < 0 ==> x !in s
    ensures r < 0 ==> 0 <= -r - 1 <= |s|
    ensures r < 0 ==> forall k :: 0 <= k < |s| ==> (k < -r - 1 <==> s[k] < x)
    decreases hi - lo
  {
    if lo == hi then
      -(lo as int) - 1
    else
      var mid := lo + (hi - lo) / 2;
      if s[mid] < x then Search(s, x, mid + 1, hi)
      else if x < s[mid] then Search(s, x, lo, mid)
      else mid
  }

  /** `bs(s, x, comparator)`: the search over the whole array. */
  function Find(s: seq<int>, x: int): (r: int)
    requires StrictlySorted(s)
    ensures 0 <= r <==> x in s
    ensures 0 <= r ==> r < |s| && s[r] == x
  {
    Search(s, x, 0, |s|)
  }

  /** Reference definition: `s` with every occurrence of `x` dropped. */
  function Without(s: seq<int>, x: int): (r: seq<int>)
    ensures forall e :: e in r <==> e in s && e != x
    ensures |r| <= |s|
  {
    if s == [] then []
    else if s[0] == x then Without(s[1..], x)
    else [s[0]] + Without(s[1..], x)
  }

  /** `splice(k, 1)`: removes the element at position `k`. */
  function RemoveAt(s: seq<int>, k: nat): (r: seq<int>)
    requires k < |s|
    ensures |r| == |s| - 1
    ensures forall i :: 0 <= i < |r| ==> r[i] == if i < k then s[i] else s[i + 1]
    ensures StrictlySorted(s) ==> StrictlySorted(r)
    ensures StrictlySorted(s) ==> forall e :: e in r <==> e in s && e != s[k]
  {
    var r := s[..k] + s[k + 1..];
    assert forall i :: 0 <= i < |r| ==> r[i] == if i < k then s[i] else s[i + 1];
    assert forall e :: e in r ==> exists i :: 0 <= i < |r| && r[i] == e;
    r
  }

  /** `splice(k)` with no delete count: keeps only the first `k` elements. */
  function Truncate(s: seq<int>, k: nat): (r: seq<int>)
    ensures k <= |s| ==> |r| == k
    ensures k <= |s| ==> forall i :: 0 <= i < k ==> r[i] == s[i]
    ensures |s| < k ==> r == s
  {
    if k <= |s| then s[..k] else s
  }

  /** Places `x` before the first element not smaller than it. */
  function Insert(s: seq<int>, x: int): (r: seq<int>)
    ensures multiset(r) == multiset(s) + multiset{x}
    ensures |r| == |s| + 1
  {
    if s == [] || x <= s[0] then [x] + s
    else
      assert s == [s[0]] + s[1..];
      [s[0]] + Insert(s[1..], x)
  }

  lemma {:induction false} InsertKeepsOrder(s: seq<int>, x: int)
    requires Sorted(s)
    ensures Sorted(Insert(s, x))
    decreases |s|
  {
    if s != [] && x > s[0] {
      var t := Insert(s[1..], x);
      InsertKeepsOrder(s[1..], x);
      InsertMembers(s[1..], x);
      forall i | 0 <= i < |t| ensures s[0] <= t[i] {
        assert t[i] in t;
      }
      PrependKeepsOrder(s[0], t);
    }
  }

  lemma {:induction false} InsertKeepsStrictOrder(s: seq<int>, x: int)
    requires StrictlySorted(s) && x !in s
    ensures StrictlySorted(Insert(s, x))
    decreases |s|
  {
    if s != [] && x > s[0] {
      var t := Insert(s[1..], x);
      InsertKeepsStrictOrder(s[1..], x);
      InsertMembers(s[1..], x);
      forall i | 0 <= i < |t| ensures s[0] < t[i] {
        assert t[i] in t;
      }
      PrependKeepsStrictOrder(s[0], t);
    } else if s != [] {
      assert x != s[0];
      PrependKeepsStrictOrder(x, s);
    }
  }

  /** The members of `Insert(s, x)` are those of `s` and `x`. */
  lemma InsertMembers(s: seq<int>, x: int)
    ensures forall e :: e in Insert(s, x) <==> e in s || e == x
  {
    var r := Insert(s, x);
    assert forall e :: e in r <==> e in multiset(r);
    assert forall e :: e in s <==> e in multiset(s);
  }

  lemma PrependKeepsOrder(x: int, t: seq<int>)
    requires Sorted(t) && forall i :: 0 <= i < |t| ==> x <= t[i]
    ensures Sorted([x] + t)
  {
    var r := [x] + t;
    forall i, j | 0 <= i < j < |r| ensures r[i] <= r[j] {
      assert r[j] == t[j - 1];
      if i > 0 {
        assert r[i] == t[i - 1];
      }
    }
  }

  lemma PrependKeepsStrictOrder(x: int, t: seq<int>)
    requires StrictlySorted(t) && forall i :: 0 <= i < |t| ==> x < t[i]
    ensures StrictlySorted([x] + t)
  {
    var r := [x] + t;
    forall i, j | 0 <= i < j < |r| ensures r[i] < r[j] {
      assert r[j] == t[j - 1];
      if i > 0 {
        assert r[i] == t[i - 1];
      }
    }
  }

  /** Functional insertion sort: what `push` followed by `sort(comparator)` leaves. */
  function Sort(s: seq<int>): (r: seq<int>)
    ensures multiset(r) == multiset(s)
    ensures Sorted(r)
  {
    if s == [] then []
    else
      assert s == s[..|s| - 1] + [s[|s| - 1]];
      var init := Sort(s[..|s| - 1]);
      InsertKeepsOrder(init, s[|s| - 1]);
      Insert(init, s[|s| - 1])
  }

  /**
    Puts `x` back unless the binary search already finds it: `push` then
    `sort`, guarded by `bs(s, x, comparator) < 0`.
   */
  function Reinsert(s: seq<int>, x: int): (r: seq<int>)
    requires StrictlySorted(s)
    ensures StrictlySorted(r)
    ensures forall e :: e in r <==> e in s || e == x
    ensures |r| == |s| + (if x in s then 0 else 1)
  {
    if Find(s, x) < 0 then
      PushSortIsInsert(s, x);
      InsertKeepsStrictOrder(s, x);
      var r := Sort(s + [x]);
      assert forall e :: e in r <==> e in multiset(r);
      r
    else s
  }

  /**
    Pushes `n, n + 1, …, n + count - 1` and sorts. When every element already
    present is below `n` the new indices simply land at the end.
   */
  function PushRun(s: seq<int>, n: int, count: nat): (r: seq<int>)
    ensures Sorted(r)
    ensures multiset(r) == multiset(s) + multiset(Range(n, n + count))
    ensures StrictlySorted(s) && (forall e :: e in s ==> e < n) ==>
      && r == s + Range(n, n + count)
      && StrictlySorted(r)
      && forall e :: e in r <==> e in s || n <= e < n + count
  {
    var pushed := s + Range(n, n + count);
    if StrictlySorted(s) && (forall e :: e in s ==> e < n) then
      AppendRun(s, n, count);
      SortSorted(pushed);
      Sort(pushed)
    else Sort(pushed)
  }

  /** Elements below `n` followed by the run from `n` stay strictly ordered. */
  lemma AppendRun(s: seq<int>, n: int, count: nat)
    requires StrictlySorted(s) && forall e :: e in s ==> e < n
    ensures StrictlySorted(s + Range(n, n + count))
    ensures Sorted(s + Range(n, n + count))
    ensures forall e :: e in s + Range(n, n + count) <==> e in s || n <= e < n + count
  {
    var t := s + Range(n, n + count);
    forall i, j | 0 <= i < j < |t| ensures t[i] < t[j] {
      if j < |s| {
      } else if i < |s| {
        assert t[i] in s;
      }
    }
    forall e | n <= e < n + count ensures e in t {
      assert t[|s| + (e - n)] == e;
    }
  }

  /** The ascending run `lo, lo + 1, …, hi - 1`. */
  function Range(lo: int, hi: int): (r: seq<int>)
    ensures |r| == if lo <= hi then hi - lo else 0
    ensures forall k :: 0 <= k < |r| ==> r[k] == lo + k
    decreases hi - lo
  {
    if hi <= lo then [] else [lo] + Range(lo + 1, hi)
  }

  /** A non-empty sequence has a member: its first element. */
  lemma FirstIsMember(s: seq<int>)
    ensures s == [] || s[0] in s
  {
  }

  /** Removing at the found position is the same as filtering the value out. */
  lemma {:induction false} RemoveFoundIsWithout(s: seq<int>, k: nat)
    requires StrictlySorted(s) && k < |s|
    ensures RemoveAt(s, k) == Without(s, s[k])
    decreases |s|
  {
    var t := s[1..];
    var a := RemoveAt(s, k);
    if k == 0 {
      assert s[0] !in t by {
        forall i | 0 <= i < |t| ensures t[i] != s[0] {
          assert t[i] == s[i + 1];
        }
      }
      WithoutAbsent(t, s[0]);
      assert a == t;
    } else {
      RemoveFoundIsWithout(t, k - 1);
      assert t[k - 1] == s[k] && s[0] != s[k];
      assert Without(s, s[k]) == [s[0]] + Without(t, s[k]);
      var b := [s[0]] + RemoveAt(t, k - 1);
      forall i | 0 <= i < |a| ensures a[i] == b[i] {
        if i > 0 {
          assert b[i] == RemoveAt(t, k - 1)[i - 1];
        }
      }
      assert a == b;
    }
  }

  lemma {:induction false} WithoutAbsent(s: seq<int>, x: int)
    requires x !in s
    ensures Without(s, x) == s
    decreases |s|
  {
    if s != [] {
      WithoutAbsent(s[1..], x);
      assert s == [s[0]] + s[1..];
    }
  }

  /** Inserting an element no smaller than any other appends it. */
  lemma {:induction false} InsertLargest(s: seq<int>, x: int)
    requires Sorted(s)
    requires forall i :: 0 <= i < |s| ==> s[i] <= x
    ensures Insert(s, x) == s + [x]
    decreases |s|
  {
    if s != [] {
      if x <= s[0] {
        assert forall i :: 0 <= i < |s| ==> s[i] == x;
        assert [x] + s == s + [x];
      } else {
        InsertLargest(s[1..], x);
        assert s == [s[0]] + s[1..];
      }
    }
  }

  /** Sorting an already sorted sequence leaves it as it is. */
  lemma {:induction false} SortSorted(s: seq<int>)
    requires Sorted(s)
    ensures Sort(s) == s
    decreases |s|
  {
    if s != [] {
      var init := s[..|s| - 1];
      var x := s[|s| - 1];
      assert s == init + [x];
      assert Sort(s) == Insert(Sort(init), x);
      SortSorted(init);
      InsertLargest(init, x);
    }
  }

  /** `push(x)` then `sort`: the same as inserting into the sorted array. */
  lemma PushSortIsInsert(s: seq<int>, x: int)
    requires Sorted(s)
    ensures Sort(s + [x]) == Insert(s, x)
  {
    assert (s + [x])[..|s + [x]| - 1] == s;
    SortSorted(s);
  }
}

=== FILE: workloads.dfy ===
/**
  The `work` callback of the factorial example client
  (examples/factorial/client.js): `num` starts at the work value and is
  multiplied by every `x` from 1 while `x < work`.
 */
module FactorialWorkload {

  function Factorial(n: nat): (r: nat)
    ensures r >= 1
  {
    if n == 0 then 1 else n * Factorial(n - 1)
  }

  /**
    The submitted value. For `work >= 1` it is `work!`; for `work <= 1` the
    loop body never runs and the value is `work` itself, so 0 yields 0.
    `rounds` counts the iterations of the loop.
   */
  method Compute(work: int) returns (num: int, ghost rounds: nat)
    ensures work >= 1 ==> num == Factorial(work)
    ensures work <= 1 ==> num == work
    ensures rounds == if work > 1 then work - 1 else 0
  {
    num := work;
    rounds := 0;
    var x := 1;
    while x < work
      invariant 1 <= x
      invariant work >= 1 ==> x <= work && num == work * Factorial(x - 1)
      invariant work < 1 ==> x == 1 && num == work
      invariant rounds == x - 1
      decreases work - x
    {
      assert Factorial(x) == x * Factorial(x - 1);
      num := num * x;
      x := x + 1;
      rounds := rounds + 1;
    }
  }
}

/**
  The `work` callback of the Collatz example client
  (examples/collatz/client.js): count the Collatz steps from `work` to 1.
  Whether the loop ends for every positive start is the Collatz conjecture,
  so the model runs it with a step budget.
 */
module CollatzWorkload {
  import opened Wrappers

  /** One iteration: halve an even value, map an odd `t` to `3t + 1`. */
  function Next(t: int): (r: int)
    ensures t % 2 == 0 ==> 2 * r == t
    ensures t % 2 != 0 ==> r == 3 * t + 1
  {
    if t % 2 == 0 then t / 2 else 3 * t + 1
  }

  /** The value after `n` iterations. */
  function Iterate(t: int, n: nat): int {
    if n == 0 then t else Next(Iterate(t, n - 1))
  }

  /**
    The count the client submits. `Some(n)` when the loop stops within
    `fuel` iterations: then `n` iterations reach 1 and no fewer do. `None`
    when `fuel` iterations pass without reaching 1.
   */
  method Steps(work: int, fuel: nat) returns (r: Option<nat>)
    ensures r.Some? ==> r.value <= fuel && Iterate(work, r.value) == 1
    ensures r.Some? ==> forall k :: 0 <= k < r.value ==> Iterate(work, k) != 1
    ensures r.None? ==> forall k :: 0 <= k <= fuel ==> Iterate(work, k) != 1
    ensures work == 1 ==> r == Some(0)
  {
    var temp := work;
    var num: nat := 0;
    while temp != 1 && num < fuel
      invariant num <= fuel
      invariant temp == Iterate(work, num)
      invariant forall k :: 0 <= k < num ==> Iterate(work, k) != 1
      decreases fuel - num
    {
      temp := Next(temp);
      num := num + 1;
    }
    if temp == 1 {
      r := Some(num);
    } else {
      r := None;
    }
  }

  /** From 0 the loop never reaches 1: 0 is even and halves to itself. */
  lemma {:induction false} ZeroNeverArrives(n: nat)
    ensures Iterate(0, n) == 0
  {
    if n > 0 {
      ZeroNeverArrives(n - 1);
    }
  }
}

=== FILE: wrappers.dfy ===
/** Small optional-value datatype shared by the server model and the workloads. */
module Wrappers {

  /** `None` stands for the JavaScript sentinel `-1` / "nothing held". */
  datatype Option<+T> = None | Some(value: T)
}
